=== FILE: README.md ===
# Scheduler, server inventory and user ingest: a Dafny model

This project models the service layer of a small FastAPI/MongoDB back end. The back end has three parts:

- a job scheduler with a job store, an execution ledger and a closed registry of ten job handlers;
- a per-user server inventory;
- a user store that is filled from single JSON records, JSON batches and spreadsheet rows.

Each MongoDB collection is a value in the model:

- `Tables.Table<R>` is a finite map from object id to document, used for jobs, executions and servers.
- The users collection is a sequence in insertion order, because no operation looks a user up by id.

Every store operation is a pure function that returns its result together with the new store. Some other values become parameters:

- The clock becomes an `Instant` parameter.
- The id the driver generates for an insert is a `newId` parameter. A clash with a stored id gives the driver's duplicate-key error.
- A handler's `run()` becomes a function parameter from its defaulted arguments to "returned text" or "raised error".

The conversion `ObjectId(text)` is modelled as `ObjectIds.Parse`: 24 hexadecimal digits, in either case. Every "malformed id" branch of the source (`except: return None/False/[]/0`) is therefore a case of the model. `str(oid)` is `ObjectIds.Format`, and the two round-trip.

`run_job_now` is modelled as two sequential steps:

- `StartRun` records the `running` execution and takes a snapshot of the job.
- `FinishRun` is the body of the background thread.

Jobs created through the service always name a registered class and an owner (`SchedulerService.AllWellFormed`). Every service operation keeps that invariant. Under it the "Job class not found" failure of a run cannot happen.

Modules follow the source files:

- `object_ids.dfy` and `tables.dfy` model the driver.
- `job_model.dfy` is `models/job.py`.
- `registry.dfy` is `services/jobs.py`.
- `scheduler_service.dfy`, `server_model.dfy`, `server_service.dfy`, `user_model.dfy` and `user_service.dfy` follow their namesakes.
- `base.dfy` holds the shared vocabulary: options, dictionary keys that may be absent, JSON values and Python truthiness.

## Model

| member | source | states |
|---|---|---|
| ObjectIds.ParseFormat | app/models/job.py:84-91 | the id text the services write with `str(oid)` converts back to the same id |
| ObjectIds.FormatParse | app/models/job.py:84-91 | an accepted id text written back is the same text in lower case, so two spellings name the same document exactly when they agree up to case |
| ObjectIds.Parse | app/models/job.py:88-91 | the model's `ObjectId(text)` succeeds exactly on 24 hexadecimal digits; on any other text the lookup takes the `except` branch (see Left out for whitespace) |
| Tables.FindById | app/models/job.py:84-91 | `find_one` by id gives a document exactly when the text parses and names a stored id, and it gives that document; otherwise `None` |
| Tables.Delete | app/models/job.py:127-135 | `delete_one` by id (`Job.delete_job`, and `Server.delete_server` at app/models/server.py:106-115) is true exactly when the text names a stored document; that document goes and the store shrinks by one; false and no change for a malformed or unknown id |
| Tables.Insert | app/models/job.py:80-81 | `insert_one` adds exactly the new id, keeps every other document, and fails with a duplicate key when the id is taken |
| JobModel.OwnerId | app/models/job.py:60 | a text `user_id` is converted, and malformed text raises; a missing one is stored as `None` |
| JobModel.InsertJob | app/models/job.py:54-81 | every field the caller supplies is stored as given; each absent one takes its default: each cron field `"*"`, `is_enabled` true, `is_paused` false, description `""`, args `[]`, kwargs `{}`; run times `None`, `total_executions` 0, both timestamps the insert time; nothing else in the store changes |
| JobModel.InsertThenFind | app/models/job.py:84-91 | a job just inserted is found again through the text form of its new id |
| JobModel.UpdateJob | app/models/job.py:112-124 | never changes `user_id`, `_id` or `created_at`; always sets `updated_at`; every field absent from the input keeps its value and every present one takes the input's; no effect on an unknown or malformed id; the result says whether the document changed |
| JobModel.ApplyPatchFields | app/models/job.py:117-121 | after `$set`, every field the input names holds the input's value and every other field keeps its old one |
| JobModel.ProtectedKeysIgnored | app/models/job.py:117-118 | an update naming only `_id`, `user_id`, `created_at` or `updated_at` only refreshes `updated_at` |
| JobModel.PatchIdempotent | app/models/job.py:117-121 | applying the same update twice is applying it once |
| JobModel.SetPaused | app/models/job.py:138-163 | pause/resume set only `is_paused` (true/false) and `updated_at`; no effect on an unknown or malformed id |
| JobModel.SetPausedIsUpdate | app/models/job.py:138-163 | pausing writes the same document as the general update with `{"is_paused": True}` (resuming, with `False`) |
| JobModel.PauseResumeRestores | app/models/job.py:138-163 | pausing then resuming an unpaused job restores it except for `updated_at` |
| JobModel.InsertExecution | app/models/job.py:199-217 | both ids are converted first, and a malformed one writes nothing; a supplied status, output or error is stored as given, an absent one defaults to pending, `""` and `""`; the other fields are copied; `created_at` is stamped |
| JobModel.UpdateExecution | app/models/job.py:248-259 | never changes `_id` or `created_at`; every other field the patch names (job and owner included) takes the patch's value, every field it leaves out keeps its value; the result is true exactly when the document changed; no effect on an unknown or malformed id |
| JobModel.ExecutionProtectedKeysIgnored | app/models/job.py:253 | an execution update naming only `_id` or `created_at` changes nothing |
| JobModel.Capped | app/models/job.py:236 | `.limit(n)` keeps everything for 0; otherwise it keeps everything or exactly `abs(n)` documents, never more than `abs(n)` and never more than there are |
| JobModel.ListExecutions | app/services/scheduler_service.py:407-410 | the listing holds distinct matching executions, newest first, as many as the limit allows, and no execution left out is newer than one listed |
| JobModel.FindExecutionsByJob | app/models/job.py:230-238 | only executions of that job, each at most once, newest first; exactly `.limit` of the matching count; no matching execution left out is newer than one listed; none for a malformed job id |
| Registry.GetJobClass | app/services/jobs.py:229-231 | a handler exactly for the ten registered keys, the one registered under that key; `None` for any other string or a missing key |
| Registry.GetJobClassOfKey | app/services/jobs.py:214-225 | every handler is reached through its own key |
| Registry.ClassStringInjective | app/services/jobs.py:214-225 | no two handlers are registered under the same key |
| Registry.AvailableJobs | app/services/jobs.py:234-243 | one entry per registry key (ten), each entry's `class_string` looks up its own handler, and the keys are distinct |
| Registry.AvailableJobsMatchLookup | app/services/jobs.py:229-243 | a string is listed as an available job exactly when `get_job_class` accepts it |
| Registry.NewHandlerInput | app/services/jobs.py:11-13 | a handler gets `[]` for missing positional arguments and `{}` for missing keyword arguments |
| Registry.Configure | app/services/jobs.py:21-211 | each handler's view of its arguments: the first positional argument or the handler's default (recipient, URL, script; the health check's server or none), each keyword it names or that keyword's default, and the whole args/kwargs for the echo job and the whole kwargs for the webhook and custom-script jobs; nothing else |
| Registry.FallbacksWithoutArguments | app/services/jobs.py:62-200 | with no arguments the handlers use recipient "admin@example.com", subject "Scheduled Notification", webhook "https://example.com/webhook", script "default_script.sh", days_old 30, report type "daily", and the default collection and task lists |
| Registry.PositionalDefaultApplies | app/services/jobs.py:76-200 | no positional argument is the same as passing the handler's default first argument |
| Registry.OnlyFirstArgumentRead | app/services/jobs.py:39-200 | apart from the echo job, handlers read at most the first positional argument |
| Registry.KeywordDefaultApplies | app/services/jobs.py:62-181 | a missing keyword argument is the same as passing its default |
| Registry.OnlyNamedKeywordsRead | app/services/jobs.py:62-181 | handlers that look keyword arguments up by name ignore every other key |
| SchedulerService.FirstMissing | app/services/scheduler_service.py:37-44 | the first of `user_id`, `job_class_string`, `name`, in that order, whose value is missing or empty |
| SchedulerService.CreateJob | app/services/scheduler_service.py:31-66 | fails naming the first missing field, or the unregistered class, and inserts nothing; succeeds exactly when the fields are present, the class is registered and the owner id parses; on success the store is exactly the one `Job.insert_job` produces, so the new job carries the caller's schedule, description, arguments and flags or their defaults, and both timestamps; keeps every job well formed |
| SchedulerService.UpdateJob | app/services/scheduler_service.py:209-242 | "Job not found" for an unknown or malformed id; a supplied unregistered class fails without writing; otherwise the model update; keeps every job well formed |
| SchedulerService.DeleteJob | app/services/scheduler_service.py:245-268 | "Job not found" and no change for an unknown id; otherwise exactly that job is removed |
| SchedulerService.SetJobPaused | app/services/scheduler_service.py:271-320 | "Job not found" and no change for an unknown id; otherwise only `is_paused` and `updated_at` of that job change |
| SchedulerService.OwnerTextParse | app/services/scheduler_service.py:337 | `str(job["user_id"])` reads back as the owner id; an owner of `None` gives text that no id parses from |
| SchedulerService.StartRun | app/services/scheduler_service.py:323-346 | an unknown job creates no execution; otherwise exactly one new execution, `running`, started now and created now, with empty output and error and owner, name and class copied from the job; a job without an owner fails on the id conversion |
| SchedulerService.FinishRun | app/services/scheduler_service.py:349-382 | the run's execution ends in exactly one terminal status: completed with the handler's output, or failed with "Job class not found" or the raised text, and `completed_at` either way; no other field of the execution changes; only a completed run touches the job: `total_executions` becomes the value read at start plus one and `last_run_time` is set |
| SchedulerService.WellFormedRunFindsHandler | app/services/scheduler_service.py:351-352 | a run of a job created through the service always finds its handler |
| SchedulerService.RunLifecycle | app/services/scheduler_service.py:323-382 | start then finish: exactly one new execution, terminal, with both timestamps; completed runs add one to the count, failed runs leave the jobs unchanged |
| SchedulerService.OverlappingRunsCountOnce | app/services/scheduler_service.py:366-370 | two runs of one job started before either finishes add one to `total_executions`, not two |
| SchedulerService.GetExecutions | app/services/scheduler_service.py:401-410 | with a job id, only that job's executions (none for a malformed id); without one, executions of any job; either way each at most once, newest first, exactly `.limit` of the matching count, and no execution left out is newer than one listed |
| SchedulerService.SuccessRateBounds | app/services/scheduler_service.py:541 | in exact arithmetic, with completed ≤ total the rate lies in [0, 100]; it is 100 exactly when everything completed, and 0 exactly when nothing did |
| SchedulerService.TerminalCounts | app/services/scheduler_service.py:520-529 | completed plus failed executions never exceed the total |
| SchedulerService.ComputeStats | app/services/scheduler_service.py:515-542 | for one owner or everyone: total, enabled and paused jobs are the sizes of the owner's jobs and of those with `is_enabled` / `is_paused` set; total, completed and failed executions likewise; rate × total = completed × 100 in exact arithmetic, within 0..100, and 0 when there are no executions |
| SchedulerService.GetSchedulerStats | app/services/scheduler_service.py:510-551 | a malformed owner id fails; an empty or missing one counts everything; otherwise the counts are scoped to that owner |
| SchedulerService.UnscopedStatsCountEverything | app/services/scheduler_service.py:523-526 | unscoped totals are the number of stored jobs and executions |
| ServerModel.InsertServer | app/models/server.py:34-54 | status defaults to "running" only when the key is absent; a malformed text `user_id` raises and inserts nothing; a missing one is stored as `None`; the other fields are copied |
| ServerModel.FindServersByUser | app/models/server.py:67-74 | exactly the servers whose `user_id` is the given id; none for a malformed id |
| ServerModel.UpdateServer | app/models/server.py:84-103 | `_id`, `user_id` and `created_at` are dropped; `updated_at` is set; unspecified fields are unchanged; false for an unknown or malformed id |
| ServerModel.UpdateModifiesWhenClockMoves | app/models/server.py:95-101 | with a clock that has moved since the last write, every update of a stored server counts as modified |
| ServerModel.ServerProtectedKeysIgnored | app/models/server.py:91-95 | an update naming only protected keys only refreshes `updated_at` |
| ServerModel.DeleteServersByUser | app/models/server.py:118-127 | removes exactly the servers with that `user_id`, keeps all others unchanged, returns how many went; 0 and no change on a malformed id |
| ServerModel.DeleteByUserRemovesListed | app/models/server.py:67-127 | what `delete_servers_by_user` removes is exactly what `find_servers_by_user` lists, and the count is its size |
| ServerModel.InsertThenListed | app/models/server.py:34-74 | a server inserted for a user is listed for that user |
| ServerService.FirstMissing | app/services/server_service.py:17-24 | the first of `user_id`, `name`, `hostname`, `port`, in that order, that is missing or falsy; a port of 0 counts as missing |
| ServerService.CreateServer | app/services/server_service.py:11-37 | missing fields fail and insert nothing; success exactly when all four are present, the owner id parses and the id is free; the returned id text names the new server, which is listed for its owner |
| ServerService.UpdateSet | app/services/server_service.py:171-187 | the update holds exactly those of the eight updatable fields whose input is truthy, and never `user_id` |
| ServerService.NothingToUpdateIffAllFalsy | app/services/server_service.py:171-193 | there is nothing to update exactly when all eight inputs are falsy |
| ServerService.UpdateServer | app/services/server_service.py:157-227 | "Server not found" with no write for an unknown id; "No fields to update" with no write for an all-falsy input; otherwise truthy inputs replace, the rest are kept, and the owner and `created_at` never change; success exactly when the document changed |
| ServerService.UpdateNeverClears | app/services/server_service.py:171-187 | the service can never make a truthy field falsy |
| ServerService.DeleteServer | app/services/server_service.py:230-251 | success exactly when a server was deleted; otherwise "not found or failed" and no change |
| ServerService.DeleteServersByUser | app/services/server_service.py:254-264 | always succeeds, removing and counting exactly the servers listed for the user |
| UserModel.InsertUser | app/models/user.py:22-40 | fails with a duplicate key exactly when the id, the email or the user name is already stored; the user name defaults to the email only when the key is absent; uniqueness of email and user name is preserved |
| UserModel.FindUserByEmail | app/models/user.py:43-47 | `None` exactly when no user has that email; otherwise the first stored user with it |
| UserModel.FindUserByEmailUnique | app/models/user.py:22-47 | with unique emails the user found is the one stored with that email |
| UserModel.InsertThenFind | app/models/user.py:26-47 | a user just inserted is the one found by its email |
| UserModel.FindAllUsers | app/models/user.py:50-54 | every stored user, in store order, with all fields but `_id` |
| UserService.StoredUser | app/services/user_service.py:19-29 | the user name stored is `user_name__v` when it is non-empty, else the email |
| UserService.CreateUserFromJson | app/services/user_service.py:13-48 | success exactly when no unique index clashes; then the user is appended and its id returned; a clash fails with no `user_id`, no write, and the message names the email |
| UserService.DuplicateEmailRefused | app/services/user_service.py:37-42 | an email already on file is refused with "User with email … already exists" and nothing is stored |
| UserService.IngestBatch | app/services/user_service.py:55-71 | total equals the number of input users and of details; successful + failed = total; the store grows by the successes only; uniqueness is preserved |
| UserService.IngestFirst | app/services/user_service.py:63-69 | after the first m users of a batch: m results, successful + failed = m, the store grows by the successes at its end and keeps its uniqueness |
| UserService.BatchCountsSuccesses | app/services/user_service.py:63-69 | `successful` is the number of details whose `success` is true |
| UserService.FirstReadsPrefix | app/services/user_service.py:63-69 | the result after the first m users depends only on those m users and their ids |
| UserService.CreateUsersFromJsonPayload | app/services/user_service.py:51-71 | a payload without `users` is an empty batch; the counts add up |
| UserService.BatchPrefix | app/services/user_service.py:63-69 | `details` is in input order: the first k results are those of the first k users alone |
| UserService.RepeatedEmailFailsOnce | app/services/user_service.py:63-69 | the same email twice in one batch gives at least one failure |
| UserService.Columns | app/services/user_service.py:93-99 | each header name maps to a column it heads, and every non-empty header cell's name is mapped |
| UserService.ColumnsAgreeWithoutGaps | app/services/user_service.py:93-99 | with no empty header cell, the column map as written and the corrected one agree |
| UserService.BlankHeaderShiftsColumns | app/services/user_service.py:93-108 | with one empty cell before the headers, the map as written reads the email from the last-name column |
| UserService.KeptRowsAreRowsWithEmail | app/services/user_service.py:102-114 | the rows that are counted are, in increasing order, exactly the data rows whose email cell is non-empty |
| UserService.KeptRowsHaveEmail | app/services/user_service.py:110-114 | every counted row number names a data row (from row 2) whose email cell is non-empty |
| UserService.KeptRowsIncrease | app/services/user_service.py:102 | counted row numbers strictly increase: rows are visited once, top to bottom |
| UserService.RowsWithEmailKept | app/services/user_service.py:110-114 | every data row whose email cell is non-empty is counted, under its sheet row number |
| UserService.IngestRow | app/services/user_service.py:114-131 | a kept row adds one to the total and one detail with its row number; it succeeds exactly when the defaulted user clashes with no stored one, and then stores exactly that user at the end; on failure the store is unchanged and only `failed` grows |
| UserService.RowInput | app/services/user_service.py:116-121 | the stored record keeps the email; an empty user name becomes the email; an empty first or last name becomes `""`; non-empty values are kept |
| UserService.IngestRows | app/services/user_service.py:102-139 | rows with an empty email are skipped and not counted; total = number of kept rows = number of details, carrying their row numbers in order; successful + failed = total |
| UserService.IngestRowsStoresRowUsers | app/services/user_service.py:114-131 | every user a sheet adds has an email, a user name and first and last names; the sheet never breaks email/user-name uniqueness |
| UserService.CreateUsersFromSheet | app/services/user_service.py:74-139 | spreadsheet ingest over a readable sheet: total is the number of rows with an email, and the counts add up |
| UserService.CreateUsersFromSheetAsWritten | app/services/user_service.py:74-139 | the same ingest with the column map as the source builds it: total is the number of rows whose cell under that map's email column is non-empty, and the counts add up |
| UserService.SheetIngestAgreesWithoutGaps | app/services/user_service.py:93-99 | on a header row with no empty cell the ingest as written and the corrected one give the same report and the same store |

## Left out

- MongoDB itself is not modelled: connections, `create_indexes`, cursors and driver exceptions other than `InvalidId` and `DuplicateKeyError`. Stores are in-memory values, and `count_documents` is the size of the selected set.
- `ObjectIds.Parse` rejects 24-character texts with ASCII whitespace between hexadecimal digit pairs. The bson library converts a 24-character text with `bytes.fromhex`, which skips such whitespace, so it accepts such a text as a shorter id. The model treats every such text as malformed; bson itself is not part of this model.
- `SchedulerService.Message` and `ServerService.Message`: when the driver raises, the source returns the exception text (`str(e)`). The model returns a fixed placeholder, because that text belongs to the driver.
- The clock is a parameter, with one instant per operation. Where the source calls `utcnow()` twice, for `created_at` and `updated_at`, the model uses one value.
- The thread in `run_job_now` is not modelled; a run is a start step followed by a finish step. The lost-update race is shown only for the sequential interleaving in `SchedulerService.OverlappingRunsCountOnce`.
- Failures of the execution update or the job update inside the background step are not modelled.
- The text handlers produce is a parameter: timestamps, `json.dumps` and the fixed sample numbers. Which arguments make a handler raise is part of that parameter too.
- No cron logic exists in the source. Schedule fields are opaque strings and `next_run_time` stays `None`.
- Read-only views that only reformat documents into dictionaries are left out:
  - `get_job`, `get_all_jobs`, `get_jobs_by_user`, `get_execution` and `get_available_jobs` in the scheduler service;
  - `get_server`, `get_servers_by_user` and `get_all_servers`;
  - `get_all_users`;
  - `find_all_jobs`, `find_jobs_by_user`, `find_executions_by_status` and `find_all_servers`.
  A lookup by id is `Tables.FindById`.
- `ServerModel.FindServersByUser` returns the set of matching ids. The store's natural order of the list is not modelled.
- `JobModel.ListExecutions` and `JobModel.FindExecutionsByJob`: the order among executions with the same `created_at` is not fixed, as in the store.
- Spreadsheet ingest does not model reading the workbook bytes with openpyxl. Its outer `except`, which reports zero counts and the error, is therefore not modelled either. Cells are strings or empty.
- The per-row `except` of spreadsheet ingest is not modelled. In the model no step of a row can raise: cell reads use columns ≥ 1, and `create_user_from_json` catches everything itself.
- `UserService.CreateUsersFromSheet` builds its column map with the corrected `UserService.Columns`; `UserService.CreateUsersFromSheetAsWritten` is the source's version. See Findings.
- `SchedulerService.SuccessRate`, `SchedulerService.SuccessRateBounds` and `SchedulerService.ComputeStats`: `success_rate` is exact rational arithmetic, where the source computes `completed / total * 100` in binary floating point. The two can differ in the last bits: for 7 completed out of 100 the float expression is 7.000000000000001, the model's rate is exactly 7. With no executions the source returns the integer `0`; the model returns the real 0.
- FastAPI routes, Pydantic schemas and application start-up are HTTP plumbing and are not modelled.

## Findings

| source | as written | input that shows it | evidently intended | confidence | as-written member | corrected member |
|---|---|---|---|---|---|---|
| app/services/user_service.py:93-99 | `col_map` numbers only the non-empty header cells, so every empty header cell shifts the columns after it one to the left | header row `[empty, user_name__v, user_first_name__v, user_last_name__v, user_email__v]`: the email is read from column 4, the last-name column | each header name maps to the column it actually heads | not executed | UserService.ColumnsAsWritten, UserService.CreateUsersFromSheetAsWritten, UserService.BlankHeaderShiftsColumns | UserService.Columns, UserService.CreateUsersFromSheet, UserService.ColumnsAgreeWithoutGaps |

=== FILE: base.dfy ===
/** Shared vocabulary: optional values, dictionary keys that may be absent,
    JSON payloads, instants and Python truthiness of the values the services test. */
module Base {

  /** A value that may be missing (Python `None`). */
  datatype Option<+T> = None | Some(value: T) {
    /** The value, or `default` when there is none. */
    function GetOr(default: T): T {
      if Some? then value else default
    }
  }

  /** The success value of an operation, or the error it reports instead. */
  datatype Result<+T, +E> = Ok(value: T) | Err(error: E)

  /** One key of a request dictionary: absent, or present with a value (which
      may itself be `None`). `d.get(key, default)` is `GetOr(default)`. */
  datatype Field<+T> = Absent | Present(value: T) {
    function GetOr(default: T): T {
      if Present? then value else default
    }
  }

  /** Instants read from the clock (`datetime.utcnow()`), as a count of ticks. */
  type Instant = nat

  /** JSON data carried verbatim: job arguments and keyword arguments. */
  datatype Json =
    | JNull
    | JBool(b: bool)
    | JInt(i: int)
    | JStr(s: string)
    | JList(items: seq<Json>)
    | JObject(members: map<string, Json>)

  /** Python truthiness of a value that is a string or `None`. */
  predicate Truthy(s: Option<string>) {
    s.Some? && s.value != ""
  }

  /** Python truthiness of a value that is an integer or `None`: 0 is false. */
  predicate TruthyInt(n: Option<int>) {
    n.Some? && n.value != 0
  }

  /** `s or fallback` for a string-or-`None` value. */
  function OrElse(s: Option<string>, fallback: Option<string>): Option<string> {
    if Truthy(s) then s else fallback
  }

  /** `str(s)` for a string-or-`None` value. */
  function PyStr(s: Option<string>): string {
    if s.Some? then s.value else "None"
  }
}

=== FILE: job_model.dfy ===
/** The `scheduler_jobs` and `scheduler_executions` collections and the store
    operations on them. The six schedule fields are stored verbatim: nothing
    interprets them, and `next_run_time` is written as `None` and never
    computed. */
module JobModel {
  import opened Base
  import opened ObjectIds
  import opened Tables

  /** The value each schedule field takes when the request leaves it out. */
  const AnyValue: Option<string> := Some("*")

  /** The six cron-style fields, kept as opaque text. */
  datatype Schedule = Schedule(
    minute: Option<string>,
    hour: Option<string>,
    dayOfMonth: Option<string>,
    month: Option<string>,
    dayOfWeek: Option<string>,
    week: Option<string>)

  /** A stored job document (without its `_id`, which is the table key). */
  datatype Job = Job(
    userId: Option<ObjectId>,
    jobClassString: Option<string>,
    name: Option<string>,
    description: Option<string>,
    pubArgs: Option<seq<Json>>,
    pubKwargs: Option<map<string, Json>>,
    schedule: Schedule,
    isEnabled: bool,
    isPaused: bool,
    createdAt: Instant,
    updatedAt: Instant,
    lastRunTime: Option<Instant>,
    nextRunTime: Option<Instant>,
    totalExecutions: int)

  /** The dictionary handed to `insert_job`. The three fields read with a bare
      `get` are `None` whether absent or null; the others distinguish an
      absent key, which takes the default, from a present one. */
  datatype JobData = JobData(
    userId: Option<string>,
    jobClassString: Option<string>,
    name: Option<string>,
    description: Field<Option<string>>,
    pubArgs: Field<Option<seq<Json>>>,
    pubKwargs: Field<Option<map<string, Json>>>,
    minute: Field<Option<string>>,
    hour: Field<Option<string>>,
    dayOfMonth: Field<Option<string>>,
    month: Field<Option<string>>,
    dayOfWeek: Field<Option<string>>,
    week: Field<Option<string>>,
    isEnabled: Field<bool>,
    isPaused: Field<bool>)

  /** `ObjectId(user_id) if isinstance(user_id, str) else user_id`. */
  function OwnerId(userId: Option<string>): (r: Result<Option<ObjectId>, StoreError>)
    ensures r.Err? <==> userId.Some? && Parse(userId.value).None?
    ensures r.Err? ==> r.error == InvalidId(userId.value)
    ensures r.Ok? ==> (r.value.Some? <==> userId.Some?)
    ensures r.Ok? && userId.Some? ==> r.value == Parse(userId.value)
  {
    match userId
    case None => Ok(None)
    case Some(text) =>
      match Parse(text)
      case None => Err(InvalidId(text))
      case Some(id) => Ok(Some(id))
  }

  /** A field after `data.get(key, default)`: the caller's value when the key
      is present, the default when it is absent. */
  predicate StoredFrom<T(==)>(given: Field<T>, default: T, stored: T) {
    if given.Present? then stored == given.value else stored == default
  }

  /** The document `insert_job` builds from its dictionary. */
  function NewJob(data: JobData, owner: Option<ObjectId>, now: Instant): Job {
    Job(owner, data.jobClassString, data.name,
        data.description.GetOr(Some("")),
        data.pubArgs.GetOr(Some([])),
        data.pubKwargs.GetOr(Some(map[])),
        Schedule(data.minute.GetOr(AnyValue), data.hour.GetOr(AnyValue),
                 data.dayOfMonth.GetOr(AnyValue), data.month.GetOr(AnyValue),
                 data.dayOfWeek.GetOr(AnyValue), data.week.GetOr(AnyValue)),
        data.isEnabled.GetOr(true),
        data.isPaused.GetOr(false),
        now, now, None, None, 0)
  }

  /** `Job.insert_job`: the new document is stored under `newId`, the id the
      driver generated. */
  function InsertJob(jobs: Table<Job>, data: JobData, newId: ObjectId, now: Instant): (r: Result<Table<Job>, StoreError>)
    ensures r.Ok? <==> OwnerId(data.userId).Ok? && newId !in jobs
    ensures r.Ok? ==> r.value.Keys == jobs.Keys + {newId}
    ensures r.Ok? ==> forall k | k in jobs :: r.value[k] == jobs[k]
    ensures r.Ok? ==> var j := r.value[newId];
      && j.userId == OwnerId(data.userId).value
      && j.jobClassString == data.jobClassString && j.name == data.name
      && StoredFrom(data.minute, AnyValue, j.schedule.minute)
      && StoredFrom(data.hour, AnyValue, j.schedule.hour)
      && StoredFrom(data.dayOfMonth, AnyValue, j.schedule.dayOfMonth)
      && StoredFrom(data.month, AnyValue, j.schedule.month)
      && StoredFrom(data.dayOfWeek, AnyValue, j.schedule.dayOfWeek)
      && StoredFrom(data.week, AnyValue, j.schedule.week)
      && StoredFrom(data.description, Some(""), j.description)
      && StoredFrom(data.pubArgs, Some([]), j.pubArgs)
      && StoredFrom(data.pubKwargs, Some(map[]), j.pubKwargs)
      && StoredFrom(data.isEnabled, true, j.isEnabled)
      && StoredFrom(data.isPaused, false, j.isPaused)
      && j.lastRunTime.None? && j.nextRunTime.None? && j.totalExecutions == 0
      && j.createdAt == now && j.updatedAt == now
  {
    match OwnerId(data.userId)
    case Err(e) => Err(e)
    case Ok(owner) => Insert(jobs, newId, NewJob(data, owner, now))
  }

  /** A job just inserted is found again through the text form of its id. */
  lemma InsertThenFind(jobs: Table<Job>, data: JobData, newId: ObjectId, now: Instant)
    requires InsertJob(jobs, data, newId, now).Ok?
    ensures FindById(InsertJob(jobs, data, newId, now).value, Format(newId)) ==
            Some(NewJob(data, OwnerId(data.userId).value, now))
  {
    ParseFormat(newId);
  }

  // ---------------------------------------------------------------------
  // Partial updates

  /** The dictionary handed to `Job.update_job`: each key absent or present. */
  datatype JobPatch = JobPatch(
    id: Field<string>,
    userId: Field<string>,
    createdAt: Field<Instant>,
    updatedAt: Field<Instant>,
    jobClassString: Field<Option<string>>,
    name: Field<Option<string>>,
    description: Field<Option<string>>,
    pubArgs: Field<Option<seq<Json>>>,
    pubKwargs: Field<Option<map<string, Json>>>,
    minute: Field<Option<string>>,
    hour: Field<Option<string>>,
    dayOfMonth: Field<Option<string>>,
    month: Field<Option<string>>,
    dayOfWeek: Field<Option<string>>,
    week: Field<Option<string>>,
    isEnabled: Field<bool>,
    isPaused: Field<bool>,
    lastRunTime: Field<Option<Instant>>,
    nextRunTime: Field<Option<Instant>>,
    totalExecutions: Field<int>)

  /** The empty dictionary. */
  const NoChanges: JobPatch := JobPatch(
    Absent, Absent, Absent, Absent, Absent, Absent, Absent, Absent, Absent, Absent,
    Absent, Absent, Absent, Absent, Absent, Absent, Absent, Absent, Absent, Absent)

  /** `$set` of the patch without `user_id`, `_id` and `created_at`, plus
      `updated_at`. */
  function ApplyPatch(job: Job, p: JobPatch, now: Instant): Job {
    Job(job.userId,
        p.jobClassString.GetOr(job.jobClassString),
        p.name.GetOr(job.name),
        p.description.GetOr(job.description),
        p.pubArgs.GetOr(job.pubArgs),
        p.pubKwargs.GetOr(job.pubKwargs),
        Schedule(p.minute.GetOr(job.schedule.minute), p.hour.GetOr(job.schedule.hour),
                 p.dayOfMonth.GetOr(job.schedule.dayOfMonth), p.month.GetOr(job.schedule.month),
                 p.dayOfWeek.GetOr(job.schedule.dayOfWeek), p.week.GetOr(job.schedule.week)),
        p.isEnabled.GetOr(job.isEnabled),
        p.isPaused.GetOr(job.isPaused),
        job.createdAt,
        now,
        p.lastRunTime.GetOr(job.lastRunTime),
        p.nextRunTime.GetOr(job.nextRunTime),
        p.totalExecutions.GetOr(job.totalExecutions))
  }

  /** Every field the patch leaves out keeps its old value. */
  predicate KeepsAbsent(before: Job, after: Job, p: JobPatch) {
    && (p.jobClassString.Absent? ==> after.jobClassString == before.jobClassString)
    && (p.name.Absent? ==> after.name == before.name)
    && (p.description.Absent? ==> after.description == before.description)
    && (p.pubArgs.Absent? ==> after.pubArgs == before.pubArgs)
    && (p.pubKwargs.Absent? ==> after.pubKwargs == before.pubKwargs)
    && (p.minute.Absent? ==> after.schedule.minute == before.schedule.minute)
    && (p.hour.Absent? ==> after.schedule.hour == before.schedule.hour)
    && (p.dayOfMonth.Absent? ==> after.schedule.dayOfMonth == before.schedule.dayOfMonth)
    && (p.month.Absent? ==> after.schedule.month == before.schedule.month)
    && (p.dayOfWeek.Absent? ==> after.schedule.dayOfWeek == before.schedule.dayOfWeek)
    && (p.week.Absent? ==> after.schedule.week == before.schedule.week)
    && (p.isEnabled.Absent? ==> after.isEnabled == before.isEnabled)
    && (p.isPaused.Absent? ==> after.isPaused == before.isPaused)
    && (p.lastRunTime.Absent? ==> after.lastRunTime == before.lastRunTime)
    && (p.nextRunTime.Absent? ==> after.nextRunTime == before.nextRunTime)
    && (p.totalExecutions.Absent? ==> after.totalExecutions == before.totalExecutions)
  }

  /** Every updatable field the patch names takes the patch's value. */
  predicate SetsPresent(after: Job, p: JobPatch) {
    && (p.jobClassString.Present? ==> after.jobClassString == p.jobClassString.value)
    && (p.name.Present? ==> after.name == p.name.value)
    && (p.description.Present? ==> after.description == p.description.value)
    && (p.pubArgs.Present? ==> after.pubArgs == p.pubArgs.value)
    && (p.pubKwargs.Present? ==> after.pubKwargs == p.pubKwargs.value)
    && (p.minute.Present? ==> after.schedule.minute == p.minute.value)
    && (p.hour.Present? ==> after.schedule.hour == p.hour.value)
    && (p.dayOfMonth.Present? ==> after.schedule.dayOfMonth == p.dayOfMonth.value)
    && (p.month.Present? ==> after.schedule.month == p.month.value)
    && (p.dayOfWeek.Present? ==> after.schedule.dayOfWeek == p.dayOfWeek.value)
    && (p.week.Present? ==> after.schedule.week == p.week.value)
    && (p.isEnabled.Present? ==> after.isEnabled == p.isEnabled.value)
    && (p.isPaused.Present? ==> after.isPaused == p.isPaused.value)
    && (p.lastRunTime.Present? ==> after.lastRunTime == p.lastRunTime.value)
    && (p.nextRunTime.Present? ==> after.nextRunTime == p.nextRunTime.value)
    && (p.totalExecutions.Present? ==> after.totalExecutions == p.totalExecutions.value)
  }

  lemma ApplyPatchFields(job: Job, p: JobPatch, now: Instant)
    ensures var after := ApplyPatch(job, p, now);
      KeepsAbsent(job, after, p) && SetsPresent(after, p)
  {
  }

  /** The owner and creation time of a stored job never change. */
  predicate ProtectedKept(before: Job, after: Job) {
    after.userId == before.userId && after.createdAt == before.createdAt
  }

  /** `Job.update_job`: returns whether the document changed (`modified_count > 0`). */
  function UpdateJob(jobs: Table<Job>, text: string, p: JobPatch, now: Instant): (r: (bool, Table<Job>))
    ensures !Names(jobs, text) ==> r == (false, jobs)
    ensures r.1.Keys == jobs.Keys
    ensures forall k | k in jobs && Parse(text) != Some(k) :: r.1[k] == jobs[k]
    ensures Names(jobs, text) ==> var id := Parse(text).value;
      && ProtectedKept(jobs[id], r.1[id])
      && r.1[id].updatedAt == now
      && KeepsAbsent(jobs[id], r.1[id], p)
      && SetsPresent(r.1[id], p)
      && (r.0 <==> r.1[id] != jobs[id])
  {
    if Names(jobs, text) then
      var id := Parse(text).value;
      var updated := ApplyPatch(jobs[id], p, now);
      ApplyPatchFields(jobs[id], p, now);
      (updated != jobs[id], jobs[id := updated])
    else
      (false, jobs)
  }

  /** Patching the protected keys alone only refreshes `updated_at`. */
  lemma ProtectedKeysIgnored(job: Job, p: JobPatch, now: Instant)
    requires p == NoChanges.(id := p.id, userId := p.userId, createdAt := p.createdAt, updatedAt := p.updatedAt)
    ensures ApplyPatch(job, p, now) == job.(updatedAt := now)
  {
  }

  /** Applying the same patch twice is applying it once. */
  lemma PatchIdempotent(job: Job, p: JobPatch, now: Instant)
    ensures ApplyPatch(ApplyPatch(job, p, now), p, now) == ApplyPatch(job, p, now)
  {
  }

  /** `Job.pause_job` (`paused` true) and `Job.resume_job` (`paused` false). */
  function SetPaused(jobs: Table<Job>, text: string, paused: bool, now: Instant): (r: (bool, Table<Job>))
    ensures !Names(jobs, text) ==> r == (false, jobs)
    ensures r.1.Keys == jobs.Keys
    ensures forall k | k in jobs && Parse(text) != Some(k) :: r.1[k] == jobs[k]
    ensures Names(jobs, text) ==> var id := Parse(text).value;
      && r.1[id] == jobs[id].(isPaused := paused, updatedAt := now)
      && (r.0 <==> jobs[id].isPaused != paused || jobs[id].updatedAt != now)
  {
    if Names(jobs, text) then
      var id := Parse(text).value;
      var updated := jobs[id].(isPaused := paused, updatedAt := now);
      (updated != jobs[id], jobs[id := updated])
    else
      (false, jobs)
  }

  /** Pausing is the general update with `{"is_paused": True}` (and resuming
      with `False`): the two code paths write the same document. */
  lemma SetPausedIsUpdate(jobs: Table<Job>, text: string, paused: bool, now: Instant)
    ensures SetPaused(jobs, text, paused, now) == UpdateJob(jobs, text, NoChanges.(isPaused := Present(paused)), now)
  {
  }

  /** Pausing and then resuming an unpaused job restores it, up to `updated_at`. */
  lemma PauseResumeRestores(jobs: Table<Job>, text: string, t1: Instant, t2: Instant)
    requires Names(jobs, text) && !jobs[Parse(text).value].isPaused
    ensures var id := Parse(text).value;
      SetPaused(SetPaused(jobs, text, true, t1).1, text, false, t2).1 == jobs[id := jobs[id].(updatedAt := t2)]
  {
  }

  // ---------------------------------------------------------------------
  // Execution ledger

  datatype Status = Pending | Running | Completed | Failed {
    predicate Terminal() { Completed? || Failed? }
  }

  /** A stored execution document. Owner, job name and class are copied from
      the job when the execution is created. */
  datatype Execution = Execution(
    jobId: ObjectId,
    userId: ObjectId,
    jobName: Option<string>,
    jobClassString: Option<string>,
    status: Status,
    output: string,
    error: string,
    startedAt: Option<Instant>,
    completedAt: Option<Instant>,
    createdAt: Instant)

  /** The dictionary handed to `insert_execution`. */
  datatype ExecutionData = ExecutionData(
    jobId: string,
    userId: string,
    jobName: Option<string>,
    jobClassString: Option<string>,
    status: Field<Status>,
    output: Field<string>,
    error: Field<string>,
    startedAt: Option<Instant>,
    completedAt: Option<Instant>)

  /** `JobExecution.insert_execution`. Both ids arrive as text and are
      converted first; a malformed one raises before anything is written. */
  function InsertExecution(ledger: Table<Execution>, data: ExecutionData, newId: ObjectId, now: Instant)
    : (r: Result<Table<Execution>, StoreError>)
    ensures Parse(data.jobId).None? ==> r == Err(InvalidId(data.jobId))
    ensures Parse(data.jobId).Some? && Parse(data.userId).None? ==> r == Err(InvalidId(data.userId))
    ensures r.Ok? <==> Parse(data.jobId).Some? && Parse(data.userId).Some? && newId !in ledger
    ensures r.Ok? ==> r.value.Keys == ledger.Keys + {newId}
    ensures r.Ok? ==> forall k | k in ledger :: r.value[k] == ledger[k]
    ensures r.Ok? ==> var e := r.value[newId];
      && Some(e.jobId) == Parse(data.jobId) && Some(e.userId) == Parse(data.userId)
      && e.jobName == data.jobName && e.jobClassString == data.jobClassString
      && StoredFrom(data.status, Pending, e.status)
      && StoredFrom(data.output, "", e.output)
      && StoredFrom(data.error, "", e.error)
      && e.startedAt == data.startedAt && e.completedAt == data.completedAt
      && e.createdAt == now
  {
    match Parse(data.jobId)
    case None => Err(InvalidId(data.jobId))
    case Some(jobId) =>
      match Parse(data.userId)
      case None => Err(InvalidId(data.userId))
      case Some(userId) =>
        Insert(ledger, newId, Execution(
          jobId, userId, data.jobName, data.jobClassString,
          data.status.GetOr(Pending), data.output.GetOr(""), data.error.GetOr(""),
          data.startedAt, data.completedAt, now))
  }

  /** The dictionary handed to `JobExecution.update_execution`. */
  datatype ExecutionPatch = ExecutionPatch(
    id: Field<string>,
    createdAt: Field<Instant>,
    jobId: Field<ObjectId>,
    userId: Field<ObjectId>,
    jobName: Field<Option<string>>,
    jobClassString: Field<Option<string>>,
    status: Field<Status>,
    output: Field<string>,
    error: Field<string>,
    startedAt: Field<Option<Instant>>,
    completedAt: Field<Option<Instant>>)

  const NoExecutionChanges: ExecutionPatch := ExecutionPatch(
    Absent, Absent, Absent, Absent, Absent, Absent, Absent, Absent, Absent, Absent, Absent)

  /** `$set` of the patch without `_id` and `created_at`. */
  function ApplyExecutionPatch(e: Execution, p: ExecutionPatch): Execution {
    Execution(p.jobId.GetOr(e.jobId), p.userId.GetOr(e.userId),
              p.jobName.GetOr(e.jobName), p.jobClassString.GetOr(e.jobClassString),
              p.status.GetOr(e.status), p.output.GetOr(e.output), p.error.GetOr(e.error),
              p.startedAt.GetOr(e.startedAt), p.completedAt.GetOr(e.completedAt),
              e.createdAt)
  }

  /** Every field `$set` may write: the patch's value when the patch names
      the field, the old value when it does not. */
  predicate PatchedExecution(before: Execution, after: Execution, p: ExecutionPatch) {
    && StoredFrom(p.jobId, before.jobId, after.jobId)
    && StoredFrom(p.userId, before.userId, after.userId)
    && StoredFrom(p.jobName, before.jobName, after.jobName)
    && StoredFrom(p.jobClassString, before.jobClassString, after.jobClassString)
    && StoredFrom(p.status, before.status, after.status)
    && StoredFrom(p.output, before.output, after.output)
    && StoredFrom(p.error, before.error, after.error)
    && StoredFrom(p.startedAt, before.startedAt, after.startedAt)
    && StoredFrom(p.completedAt, before.completedAt, after.completedAt)
  }

  /** `JobExecution.update_execution`: whether the document changed. */
  function UpdateExecution(ledger: Table<Execution>, text: string, p: ExecutionPatch): (r: (bool, Table<Execution>))
    ensures !Names(ledger, text) ==> r == (false, ledger)
    ensures r.1.Keys == ledger.Keys
    ensures forall k | k in ledger && Parse(text) != Some(k) :: r.1[k] == ledger[k]
    ensures Names(ledger, text) ==> var id := Parse(text).value; var before, after := ledger[id], r.1[id];
      && after.createdAt == before.createdAt
      && PatchedExecution(before, after, p)
      && (r.0 <==> after != before)
  {
    if Names(ledger, text) then
      var id := Parse(text).value;
      var updated := ApplyExecutionPatch(ledger[id], p);
      (updated != ledger[id], ledger[id := updated])
    else
      (false, ledger)
  }

  /** An update naming only `_id` and `created_at` writes nothing. */
  lemma ExecutionProtectedKeysIgnored(e: Execution, p: ExecutionPatch)
    requires p == NoExecutionChanges.(id := p.id, createdAt := p.createdAt)
    ensures ApplyExecutionPatch(e, p) == e
  {
  }

  // ---------------------------------------------------------------------
  // Newest-first listing

  /** The executions a listing selects: those of one job, or all of them. */
  predicate Matches(e: Execution, job: Option<ObjectId>) {
    job.None? || e.jobId == job.value
  }

  function MatchingIds(ledger: Table<Execution>, job: Option<ObjectId>): set<ObjectId> {
    set k | k in ledger && Matches(ledger[k], job)
  }

  /** How many documents `.limit(limit)` lets through out of `count`: a limit
      of 0 means no limit, and a negative limit acts as its absolute value. */
  function Capped(count: nat, limit: int): (n: nat)
    ensures n <= count
    ensures limit == 0 ==> n == count
    ensures limit != 0 ==> n == count || n == if limit < 0 then -limit else limit
    ensures limit != 0 ==> n <= if limit < 0 then -limit else limit
  {
    var cap := if limit < 0 then -limit else limit;
    if limit == 0 || count <= cap then count else cap
  }

  predicate NewestFirst(ledger: Table<Execution>, ids: seq<ObjectId>)
    requires forall i | 0 <= i < |ids| :: ids[i] in ledger
  {
    forall i, j | 0 <= i < j < |ids| :: ledger[ids[i]].createdAt >= ledger[ids[j]].createdAt
  }

  /** The most recently created execution among `candidates`. */
  method Newest(ledger: Table<Execution>, candidates: set<ObjectId>) returns (k: ObjectId)
    requires candidates != {} && candidates <= ledger.Keys
    ensures k in candidates
    ensures forall j | j in candidates :: ledger[j].createdAt <= ledger[k].createdAt
  {
    k :| k in candidates;
    var todo := candidates - {k};
    while todo != {}
      invariant todo <= candidates && k in candidates
      invariant forall j | j in candidates - todo :: ledger[j].createdAt <= ledger[k].createdAt
      decreases todo
    {
      var j :| j in todo;
      if ledger[j].createdAt > ledger[k].createdAt {
        k := j;
      }
      todo := todo - {j};
    }
  }

  /** `find({...}).sort("created_at", -1).limit(limit)` over the executions
      of `job` (of every job when `job` is `None`). */
  method ListExecutions(ledger: Table<Execution>, job: Option<ObjectId>, limit: int) returns (ids: seq<ObjectId>)
    ensures forall i | 0 <= i < |ids| :: ids[i] in ledger && Matches(ledger[ids[i]], job)
    ensures forall i, j | 0 <= i < j < |ids| :: ids[i] != ids[j]
    ensures NewestFirst(ledger, ids)
    ensures |ids| == Capped(|MatchingIds(ledger, job)|, limit)
    ensures forall k, i | k in MatchingIds(ledger, job) && k !in ids && 0 <= i < |ids| ::
      ledger[k].createdAt <= ledger[ids[i]].createdAt
  {
    var all := MatchingIds(ledger, job);
    var rest := all;
    var cap := Capped(|all|, limit);
    ids := [];
    while |ids| < cap
      invariant |ids| <= cap
      invariant rest <= all
      invariant forall i | 0 <= i < |ids| :: ids[i] in all && ids[i] !in rest
      invariant forall i, j | 0 <= i < j < |ids| :: ids[i] != ids[j]
      invariant forall k | k in all && k !in ids :: k in rest
      invariant |rest| + |ids| == |all|
      invariant NewestFirst(ledger, ids)
      invariant forall k, i | k in rest && 0 <= i < |ids| :: ledger[k].createdAt <= ledger[ids[i]].createdAt
      decreases cap - |ids|
    {
      var newest := Newest(ledger, rest);
      ids := ids + [newest];
      rest := rest - {newest};
    }
  }

  /** `JobExecution.find_executions_by_job`: a malformed job id lists nothing. */
  method FindExecutionsByJob(ledger: Table<Execution>, text: string, limit: int) returns (ids: seq<ObjectId>)
    ensures Parse(text).None? ==> ids == []
    ensures forall i | 0 <= i < |ids| :: ids[i] in ledger && Some(ledger[ids[i]].jobId) == Parse(text)
    ensures forall i, j | 0 <= i < j < |ids| :: ids[i] != ids[j]
    ensures NewestFirst(ledger, ids)
    ensures Parse(text).Some? ==> |ids| == Capped(|MatchingIds(ledger, Parse(text))|, limit)
    ensures forall k, i | k in MatchingIds(ledger, Parse(text)) && k !in ids && 0 <= i < |ids| ::
      ledger[k].createdAt <= ledger[ids[i]].createdAt
  {
    match Parse(text)
    case None => ids := [];
    case Some(id) => ids := ListExecutions(ledger, Some(id), limit);
  }
}

=== FILE: object_ids.dfy ===
/** Document identifiers. Every store operation that takes an id as text first
    converts it with `ObjectId(text)`, which accepts exactly 24 hexadecimal
    digits (either case) and raises otherwise; `str(oid)` writes the 12 bytes
    back as 24 lower-case hexadecimal digits. The services rely on the first
    to tell a malformed id from an unknown one, and on the round trip when
    they hand an id to another store call as text. */
module ObjectIds {
  import opened Base

  /** Number of hexadecimal digits in the text form of an id. */
  const IdLength: nat := 24

  function Pow16(n: nat): (r: nat)
    ensures r > 0
  {
    if n == 0 then 1 else 16 * Pow16(n - 1)
  }

  /** An id is 12 bytes, that is 24 hexadecimal digits. */
  const ObjectIdBound: nat := Pow16(IdLength)

  type ObjectId = n: nat | n < ObjectIdBound

  predicate IsHexDigit(c: char) {
    '0' <= c <= '9' || 'a' <= c <= 'f' || 'A' <= c <= 'F'
  }

  predicate IsHexString(s: string) {
    forall i | 0 <= i < |s| :: IsHexDigit(s[i])
  }

  predicate IsLowerHexString(s: string) {
    forall i | 0 <= i < |s| :: '0' <= s[i] <= '9' || 'a' <= s[i] <= 'f'
  }

  function DigitValue(c: char): (v: nat)
    requires IsHexDigit(c)
    ensures v < 16
  {
    if '0' <= c <= '9' then c as nat - '0' as nat
    else if 'a' <= c <= 'f' then c as nat - 'a' as nat + 10
    else c as nat - 'A' as nat + 10
  }

  /** The lower-case digit of value `v`. */
  function DigitChar(v: nat): (c: char)
    requires v < 16
    ensures IsHexDigit(c) && ('0' <= c <= '9' || 'a' <= c <= 'f')
    ensures DigitValue(c) == v
  {
    if v < 10 then ('0' as nat + v) as char else ('a' as nat + v - 10) as char
  }

  /** The lower-case spelling of a hexadecimal digit. */
  function LowerDigit(c: char): (l: char)
    requires IsHexDigit(c)
    ensures '0' <= l <= '9' || 'a' <= l <= 'f'
    ensures DigitValue(l) == DigitValue(c)
  {
    if 'A' <= c <= 'F' then (c as nat - 'A' as nat + 'a' as nat) as char else c
  }

  function Lower(s: string): (l: string)
    requires IsHexString(s)
    ensures |l| == |s|
  {
    if s == [] then [] else Lower(s[..|s| - 1]) + [LowerDigit(s[|s| - 1])]
  }

  /** Big-endian value of a string of hexadecimal digits. */
  function HexValue(s: string): (v: nat)
    requires IsHexString(s)
    ensures v < Pow16(|s|)
  {
    if s == [] then 0 else HexValue(s[..|s| - 1]) * 16 + DigitValue(s[|s| - 1])
  }

  /** The `width` lowest hexadecimal digits of `v`, most significant first. */
  function HexDigits(v: nat, width: nat): (s: string)
    ensures |s| == width && IsHexString(s) && IsLowerHexString(s)
  {
    if width == 0 then [] else HexDigits(v / 16, width - 1) + [DigitChar(v % 16)]
  }

  /** `ObjectId(text)`: the id, or `None` where bson raises `InvalidId`. */
  function Parse(text: string): (r: Option<ObjectId>)
    ensures r.Some? <==> |text| == IdLength && IsHexString(text)
  {
    if |text| == IdLength && IsHexString(text) then Some(HexValue(text)) else None
  }

  /** `str(oid)`. */
  function Format(id: ObjectId): (text: string)
    ensures |text| == IdLength && IsLowerHexString(text)
  {
    HexDigits(id, IdLength)
  }

  lemma {:induction false} HexValueOfDigits(v: nat, width: nat)
    requires v < Pow16(width)
    ensures HexValue(HexDigits(v, width)) == v
  {
    if width > 0 {
      var s := HexDigits(v, width);
      assert s[..|s| - 1] == HexDigits(v / 16, width - 1);
      assert s[|s| - 1] == DigitChar(v % 16);
      assert v / 16 < Pow16(width - 1);
      HexValueOfDigits(v / 16, width - 1);
    }
  }

  lemma {:induction false} DigitsOfHexValue(s: string)
    requires IsHexString(s)
    ensures HexDigits(HexValue(s), |s|) == Lower(s)
  {
    if s != [] {
      var p := s[..|s| - 1];
      var v := HexValue(s);
      assert v / 16 == HexValue(p) && v % 16 == DigitValue(s[|s| - 1]);
      DigitsOfHexValue(p);
      assert DigitChar(DigitValue(s[|s| - 1])) == LowerDigit(s[|s| - 1]);
    }
  }

  /** Writing an id and reading it back gives the same id. */
  lemma ParseFormat(id: ObjectId)
    ensures Parse(Format(id)) == Some(id)
  {
    HexValueOfDigits(id, IdLength);
  }

  /** Reading an id and writing it back gives the text in lower case: two
      spellings of an id name the same document exactly when they agree up
      to case. */
  lemma FormatParse(text: string)
    requires Parse(text).Some?
    ensures Format(Parse(text).value) == Lower(text)
  {
    DigitsOfHexValue(text);
  }
}

=== FILE: registry.dfy ===
/** The job registry: a closed table of ten handlers, each reached through the
    dotted class string a job stores, and the argument defaulting each
    handler applies before it runs. */
module Registry {
  import opened Base

  datatype Handler =
    | Echo
    | ServerHealthCheck
    | DataBackup
    | EmailNotification
    | DataCleanup
    | SystemMetrics
    | ReportGeneration
    | Webhook
    | Maintenance
    | CustomScript

  /** `AVAILABLE_JOBS`, in its declaration order. */
  const Registry: seq<Handler> := [
    Echo, ServerHealthCheck, DataBackup, EmailNotification, DataCleanup,
    SystemMetrics, ReportGeneration, Webhook, Maintenance, CustomScript
  ]

  /** The registry key of a handler. */
  function ClassString(h: Handler): string {
    match h
    case Echo => "jobs.echo.EchoJob"
    case ServerHealthCheck => "jobs.server.ServerHealthCheckJob"
    case DataBackup => "jobs.backup.DataBackupJob"
    case EmailNotification => "jobs.email.EmailNotificationJob"
    case DataCleanup => "jobs.cleanup.DataCleanupJob"
    case SystemMetrics => "jobs.metrics.SystemMetricsJob"
    case ReportGeneration => "jobs.report.ReportGenerationJob"
    case Webhook => "jobs.webhook.WebhookJob"
    case Maintenance => "jobs.maintenance.MaintenanceJob"
    case CustomScript => "jobs.custom.CustomScriptJob"
  }

  /** The handler class's `__name__`. */
  function ClassName(h: Handler): string {
    match h
    case Echo => "EchoJob"
    case ServerHealthCheck => "ServerHealthCheckJob"
    case DataBackup => "DataBackupJob"
    case EmailNotification => "EmailNotificationJob"
    case DataCleanup => "DataCleanupJob"
    case SystemMetrics => "SystemMetricsJob"
    case ReportGeneration => "ReportGenerationJob"
    case Webhook => "WebhookJob"
    case Maintenance => "MaintenanceJob"
    case CustomScript => "CustomScriptJob"
  }

  /** The handler class's `__doc__`. */
  function Description(h: Handler): string {
    match h
    case Echo => "Simple job that echoes arguments"
    case ServerHealthCheck => "Job to check server health status"
    case DataBackup => "Job to backup database"
    case EmailNotification => "Job to send email notifications"
    case DataCleanup => "Job to clean up old data"
    case SystemMetrics => "Job to collect system metrics"
    case ReportGeneration => "Job to generate reports"
    case Webhook => "Job to send webhook notifications"
    case Maintenance => "Job for maintenance tasks"
    case CustomScript => "Job to run custom scripts"
  }

  lemma RegistryHoldsEveryHandler(h: Handler)
    ensures h in Registry
  {
    match h
    case Echo => assert Registry[0] == h;
    case ServerHealthCheck => assert Registry[1] == h;
    case DataBackup => assert Registry[2] == h;
    case EmailNotification => assert Registry[3] == h;
    case DataCleanup => assert Registry[4] == h;
    case SystemMetrics => assert Registry[5] == h;
    case ReportGeneration => assert Registry[6] == h;
    case Webhook => assert Registry[7] == h;
    case Maintenance => assert Registry[8] == h;
    case CustomScript => assert Registry[9] == h;
  }

  /** A handler's place in `Registry`. */
  function Position(h: Handler): nat {
    match h
    case Echo => 0
    case ServerHealthCheck => 1
    case DataBackup => 2
    case EmailNotification => 3
    case DataCleanup => 4
    case SystemMetrics => 5
    case ReportGeneration => 6
    case Webhook => 7
    case Maintenance => 8
    case CustomScript => 9
  }

  lemma PositionInRegistry(i: nat)
    requires i < |Registry|
    ensures Position(Registry[i]) == i
  {
    if i == 0 {} else if i == 1 {} else if i == 2 {} else if i == 3 {} else if i == 4 {}
    else if i == 5 {} else if i == 6 {} else if i == 7 {} else if i == 8 {} else {}
  }

  /** The handler whose key has the given two characters right after
      "jobs.": the first two letters of its module name, which differ from
      handler to handler. */
  function HandlerOfTag(c0: char, c1: char): Option<Handler> {
    if c0 == 'e' && c1 == 'c' then Some(Echo)
    else if c0 == 's' && c1 == 'e' then Some(ServerHealthCheck)
    else if c0 == 'b' && c1 == 'a' then Some(DataBackup)
    else if c0 == 'e' && c1 == 'm' then Some(EmailNotification)
    else if c0 == 'c' && c1 == 'l' then Some(DataCleanup)
    else if c0 == 'm' && c1 == 'e' then Some(SystemMetrics)
    else if c0 == 'r' && c1 == 'e' then Some(ReportGeneration)
    else if c0 == 'w' && c1 == 'e' then Some(Webhook)
    else if c0 == 'm' && c1 == 'a' then Some(Maintenance)
    else if c0 == 'c' && c1 == 'u' then Some(CustomScript)
    else None
  }

  /** The first five handlers in registry order; the tag lemma below takes
      the handlers in these two halves. */
  predicate FirstTagGroup(h: Handler) {
    h in {Echo, ServerHealthCheck, DataBackup, EmailNotification, DataCleanup}
  }

  lemma FirstGroupTags(h: Handler)
    requires FirstTagGroup(h)
    ensures |ClassString(h)| > 6 && HandlerOfTag(ClassString(h)[5], ClassString(h)[6]) == Some(h)
  {
    match h
    case Echo => assert ClassString(Echo)[5] == 'e' && ClassString(Echo)[6] == 'c';
    case ServerHealthCheck => assert ClassString(ServerHealthCheck)[5] == 's' && ClassString(ServerHealthCheck)[6] == 'e';
    case DataBackup => assert ClassString(DataBackup)[5] == 'b' && ClassString(DataBackup)[6] == 'a';
    case EmailNotification => assert ClassString(EmailNotification)[5] == 'e' && ClassString(EmailNotification)[6] == 'm';
    case DataCleanup => assert ClassString(DataCleanup)[5] == 'c' && ClassString(DataCleanup)[6] == 'l';
  }

  lemma SecondGroupTags(h: Handler)
    requires !FirstTagGroup(h)
    ensures |ClassString(h)| > 6 && HandlerOfTag(ClassString(h)[5], ClassString(h)[6]) == Some(h)
  {
    match h
    case SystemMetrics => assert ClassString(SystemMetrics)[5] == 'm' && ClassString(SystemMetrics)[6] == 'e';
    case ReportGeneration => assert ClassString(ReportGeneration)[5] == 'r' && ClassString(ReportGeneration)[6] == 'e';
    case Webhook => assert ClassString(Webhook)[5] == 'w' && ClassString(Webhook)[6] == 'e';
    case Maintenance => assert ClassString(Maintenance)[5] == 'm' && ClassString(Maintenance)[6] == 'a';
    case CustomScript => assert ClassString(CustomScript)[5] == 'c' && ClassString(CustomScript)[6] == 'u';
  }

  /** The two letters after "jobs." name the handler. */
  lemma TagIdentifiesHandler(h: Handler)
    ensures |ClassString(h)| > 6 && HandlerOfTag(ClassString(h)[5], ClassString(h)[6]) == Some(h)
  {
    if FirstTagGroup(h) {
      FirstGroupTags(h);
    } else {
      SecondGroupTags(h);
    }
  }


  /** No two handlers share a key, so no two registry entries do. */
  lemma ClassStringInjective(h1: Handler, h2: Handler)
    ensures ClassString(h1) == ClassString(h2) ==> h1 == h2
  {
    TagIdentifiesHandler(h1);
    TagIdentifiesHandler(h2);
  }

  function Lookup(key: string, hs: seq<Handler>): (r: Option<Handler>)
    ensures r.Some? ==> r.value in hs && ClassString(r.value) == key
    ensures r.None? ==> forall i | 0 <= i < |hs| :: ClassString(hs[i]) != key
  {
    if hs == [] then None
    else if ClassString(hs[0]) == key then Some(hs[0])
    else Lookup(key, hs[1..])
  }

  /** `get_job_class`: `AVAILABLE_JOBS.get(key)`. A job's stored class string
      may be `None`, which no key equals. */
  function GetJobClass(key: Option<string>): (r: Option<Handler>)
    ensures r.Some? ==> key == Some(ClassString(r.value))
    ensures r.None? ==> forall h: Handler :: key != Some(ClassString(h))
  {
    if key.None? then None
    else
      var r := Lookup(key.value, Registry);
      assert r.None? ==> forall h: Handler :: key != Some(ClassString(h)) by {
        forall h: Handler ensures r.None? ==> key != Some(ClassString(h)) {
          RegistryHoldsEveryHandler(h);
        }
      }
      r
  }

  /** Every handler is reachable from its own key and from no other. */
  lemma GetJobClassOfKey(h: Handler)
    ensures GetJobClass(Some(ClassString(h))) == Some(h)
  {
    var r := GetJobClass(Some(ClassString(h)));
    ClassStringInjective(r.value, h);
  }

  /** One entry of `get_available_jobs()`. */
  datatype JobInfo = JobInfo(classString: string, name: string, description: string)

  /** The entry `get_available_jobs()` lists for one handler. */
  function Entry(h: Handler): JobInfo {
    JobInfo(ClassString(h), ClassName(h), Description(h))
  }

  /** `get_available_jobs()`, listed in registry order as the service lists it. */
  function AvailableJobs(): (r: seq<JobInfo>)
    ensures |r| == |Registry| == 10
    ensures forall i | 0 <= i < |r| ::
      GetJobClass(Some(r[i].classString)) == Some(Registry[i]) && r[i].name == ClassName(Registry[i])
    ensures forall i, j | 0 <= i < j < |r| :: r[i].classString != r[j].classString
  {
    var r := seq(|Registry|, i requires 0 <= i < |Registry| => Entry(Registry[i]));
    assert forall i | 0 <= i < |r| :: r[i] == Entry(Registry[i]);
    forall i | 0 <= i < |r| ensures GetJobClass(Some(r[i].classString)) == Some(Registry[i]) {
      GetJobClassOfKey(Registry[i]);
    }
    forall i, j | 0 <= i < j < |r| ensures r[i].classString != r[j].classString {
      PositionInRegistry(i);
      PositionInRegistry(j);
      ClassStringInjective(Registry[i], Registry[j]);
    }
    r
  }

  /** A string is listed as an available job exactly when `get_job_class`
      accepts it: the listing and the lookup describe the same registry. */
  lemma AvailableJobsMatchLookup(key: string)
    ensures GetJobClass(Some(key)).Some? <==>
      exists i | 0 <= i < |AvailableJobs()| :: AvailableJobs()[i].classString == key
  {
    var r := AvailableJobs();
    if GetJobClass(Some(key)).Some? {
      var h := GetJobClass(Some(key)).value;
      RegistryHoldsEveryHandler(h);
      var i :| 0 <= i < |Registry| && Registry[i] == h;
      assert r[i].classString == key;
    }
  }

  // ---------------------------------------------------------------------
  // Handler arguments

  /** The arguments a handler instance holds after `JobBase.__init__`. */
  datatype HandlerInput = HandlerInput(args: seq<Json>, kwargs: map<string, Json>)

  /** `JobBase.__init__`: `pub_args or []` and `pub_kwargs or {}`. */
  function NewHandlerInput(pubArgs: Option<seq<Json>>, pubKwargs: Option<map<string, Json>>): (r: HandlerInput)
    ensures pubArgs.Some? ==> r.args == pubArgs.value
    ensures pubArgs.None? ==> r.args == []
    ensures pubKwargs.Some? ==> r.kwargs == pubKwargs.value
    ensures pubKwargs.None? ==> r.kwargs == map[]
  {
    HandlerInput(pubArgs.GetOr([]), pubKwargs.GetOr(map[]))
  }

  /** What a handler's `run` did: returned its output text, or raised (the
      text is the exception message and traceback the caller records). */
  datatype HandlerOutcome = Returned(output: string) | Raised(error: string)

  /** What each handler acts on once its arguments are defaulted. */
  datatype Settings =
    | EchoSettings(args: seq<Json>, kwargs: map<string, Json>)
    | HealthCheckSettings(server: Option<Json>)
    | BackupSettings(collections: Json)
    | EmailSettings(recipient: Json, subject: Json, message: Json)
    | CleanupSettings(daysOld: Json, cleanupCollections: Json)
    | MetricsSettings
    | ReportSettings(reportType: Json)
    | WebhookSettings(url: Json, data: map<string, Json>)
    | MaintenanceSettings(tasks: Json)
    | ScriptSettings(script: Json, parameters: map<string, Json>)

  const DefaultRecipient: Json := JStr("admin@example.com")
  const DefaultWebhookUrl: Json := JStr("https://example.com/webhook")
  const DefaultScript: Json := JStr("default_script.sh")
  const DefaultSubject: Json := JStr("Scheduled Notification")
  const DefaultMessage: Json := JStr("Notification from scheduler")
  const DefaultDaysOld: Json := JInt(30)
  const DefaultReportType: Json := JStr("daily")
  const DefaultBackupCollections: Json := JList([JStr("users"), JStr("servers"), JStr("jobs")])
  const DefaultCleanupCollections: Json := JList([JStr("scheduler_executions")])
  const DefaultTasks: Json := JList([JStr("rebuild_indexes"), JStr("optimize_queries"), JStr("clear_cache")])

  /** `args[0] if len(args) > 0 else fallback`. */
  function FirstOr(args: seq<Json>, fallback: Json): Json {
    if |args| > 0 then args[0] else fallback
  }

  /** `kwargs.get(key, fallback)`. */
  function KwargOr(kwargs: map<string, Json>, key: string, fallback: Json): Json {
    if key in kwargs then kwargs[key] else fallback
  }

  /** The first positional argument a handler falls back to, if it has one. */
  function PositionalDefault(h: Handler): Option<Json> {
    match h
    case EmailNotification => Some(DefaultRecipient)
    case Webhook => Some(DefaultWebhookUrl)
    case CustomScript => Some(DefaultScript)
    case _ => None
  }

  /** The keyword arguments a handler looks up by name, with their fallbacks. */
  function KeywordDefaults(h: Handler): map<string, Json> {
    match h
    case DataBackup => map["collections" := DefaultBackupCollections]
    case EmailNotification => map["subject" := DefaultSubject, "message" := DefaultMessage]
    case DataCleanup => map["days_old" := DefaultDaysOld, "collections" := DefaultCleanupCollections]
    case ReportGeneration => map["report_type" := DefaultReportType]
    case Maintenance => map["tasks" := DefaultTasks]
    case _ => map[]
  }

  /** The handler a configuration belongs to. */
  function HandlerOf(s: Settings): Handler {
    match s
    case EchoSettings(_, _) => Echo
    case HealthCheckSettings(_) => ServerHealthCheck
    case BackupSettings(_) => DataBackup
    case EmailSettings(_, _, _) => EmailNotification
    case CleanupSettings(_, _) => DataCleanup
    case MetricsSettings => SystemMetrics
    case ReportSettings(_) => ReportGeneration
    case WebhookSettings(_, _) => Webhook
    case MaintenanceSettings(_) => Maintenance
    case ScriptSettings(_, _) => CustomScript
  }

  /** The value a configured handler uses as its first positional argument,
      if it reads one. */
  function FirstArgument(s: Settings): Option<Json> {
    match s
    case HealthCheckSettings(server) => server
    case EmailSettings(recipient, _, _) => Some(recipient)
    case WebhookSettings(url, _) => Some(url)
    case ScriptSettings(script, _) => Some(script)
    case _ => None
  }

  /** The value a configured handler uses for the keyword `key`, if it looks
      that keyword up by name. */
  function Keyword(s: Settings, key: string): Option<Json> {
    match s
    case BackupSettings(collections) => if key == "collections" then Some(collections) else None
    case EmailSettings(_, subject, message) =>
      if key == "subject" then Some(subject) else if key == "message" then Some(message) else None
    case CleanupSettings(daysOld, collections) =>
      if key == "days_old" then Some(daysOld) else if key == "collections" then Some(collections) else None
    case ReportSettings(reportType) => if key == "report_type" then Some(reportType) else None
    case MaintenanceSettings(tasks) => if key == "tasks" then Some(tasks) else None
    case _ => None
  }

  /** The whole keyword dictionary, for the handlers that pass it on. */
  function AllKeywords(s: Settings): Option<map<string, Json>> {
    match s
    case EchoSettings(_, kwargs) => Some(kwargs)
    case WebhookSettings(_, data) => Some(data)
    case ScriptSettings(_, parameters) => Some(parameters)
    case _ => None
  }

  /** The defaulting each handler's `run` performs before producing output. */
  function Configure(h: Handler, input: HandlerInput): (r: Settings)
    ensures HandlerOf(r) == h
    ensures h == Echo ==> r == EchoSettings(input.args, input.kwargs)
    ensures h == ServerHealthCheck ==> FirstArgument(r) == if |input.args| > 0 then Some(input.args[0]) else None
    ensures PositionalDefault(h).Some? ==> FirstArgument(r) == Some(FirstOr(input.args, PositionalDefault(h).value))
    ensures h != ServerHealthCheck && PositionalDefault(h).None? ==> FirstArgument(r).None?
    ensures forall key | key in KeywordDefaults(h) ::
      Keyword(r, key) == Some(KwargOr(input.kwargs, key, KeywordDefaults(h)[key]))
    ensures forall key | key !in KeywordDefaults(h) :: Keyword(r, key).None?
    ensures h in {Echo, Webhook, CustomScript} ==> AllKeywords(r) == Some(input.kwargs)
    ensures h !in {Echo, Webhook, CustomScript} ==> AllKeywords(r).None?
  {
    var args, kwargs := input.args, input.kwargs;
    match h
    case Echo => EchoSettings(args, kwargs)
    case ServerHealthCheck => HealthCheckSettings(if |args| > 0 then Some(args[0]) else None)
    case DataBackup => BackupSettings(KwargOr(kwargs, "collections", DefaultBackupCollections))
    case EmailNotification =>
      EmailSettings(FirstOr(args, DefaultRecipient),
                    KwargOr(kwargs, "subject", DefaultSubject),
                    KwargOr(kwargs, "message", DefaultMessage))
    case DataCleanup =>
      CleanupSettings(KwargOr(kwargs, "days_old", DefaultDaysOld),
                      KwargOr(kwargs, "collections", DefaultCleanupCollections))
    case SystemMetrics => MetricsSettings
    case ReportGeneration => ReportSettings(KwargOr(kwargs, "report_type", DefaultReportType))
    case Webhook => WebhookSettings(FirstOr(args, DefaultWebhookUrl), kwargs)
    case Maintenance => MaintenanceSettings(KwargOr(kwargs, "tasks", DefaultTasks))
    case CustomScript => ScriptSettings(FirstOr(args, DefaultScript), kwargs)
  }

  /** Running with no positional arguments is running with the handler's
      default first argument passed explicitly. */
  lemma PositionalDefaultApplies(h: Handler, kwargs: map<string, Json>)
    requires PositionalDefault(h).Some?
    ensures Configure(h, HandlerInput([], kwargs)) == Configure(h, HandlerInput([PositionalDefault(h).value], kwargs))
  {
  }

  /** Every handler but Echo reads at most the first positional argument. */
  lemma OnlyFirstArgumentRead(h: Handler, args: seq<Json>, kwargs: map<string, Json>)
    requires h != Echo && |args| > 0
    ensures Configure(h, HandlerInput(args, kwargs)) == Configure(h, HandlerInput([args[0]], kwargs))
  {
  }

  /** Leaving out a keyword argument a handler looks up is passing its
      default value explicitly. */
  lemma KeywordDefaultApplies(h: Handler, args: seq<Json>, kwargs: map<string, Json>, key: string)
    requires key in KeywordDefaults(h) && key !in kwargs
    ensures Configure(h, HandlerInput(args, kwargs)) ==
            Configure(h, HandlerInput(args, kwargs[key := KeywordDefaults(h)[key]]))
  {
  }

  /** Handlers that look keyword arguments up by name ignore every other key. */
  lemma OnlyNamedKeywordsRead(h: Handler, args: seq<Json>, kwargs: map<string, Json>)
    requires h !in {Echo, Webhook, CustomScript}
    ensures Configure(h, HandlerInput(args, kwargs)) ==
            Configure(h, HandlerInput(args, map k | k in kwargs && k in KeywordDefaults(h) :: kwargs[k]))
  {
  }

  /** A job stored without arguments runs with the documented fallbacks. */
  lemma FallbacksWithoutArguments()
    ensures var none := NewHandlerInput(None, None);
      && Configure(EmailNotification, none) ==
           EmailSettings(JStr("admin@example.com"), JStr("Scheduled Notification"), JStr("Notification from scheduler"))
      && Configure(Webhook, none) == WebhookSettings(JStr("https://example.com/webhook"), map[])
      && Configure(CustomScript, none) == ScriptSettings(JStr("default_script.sh"), map[])
      && Configure(DataCleanup, none) == CleanupSettings(JInt(30), JList([JStr("scheduler_executions")]))
      && Configure(ReportGeneration, none) == ReportSettings(JStr("daily"))
      && Configure(Maintenance, none) ==
           MaintenanceSettings(JList([JStr("rebuild_indexes"), JStr("optimize_queries"), JStr("clear_cache")]))
      && Configure(DataBackup, none) == BackupSettings(JList([JStr("users"), JStr("servers"), JStr("jobs")]))
      && Configure(ServerHealthCheck, none) == HealthCheckSettings(None)
  {
  }
}

=== FILE: scheduler_service.dfy ===
/** The scheduler service: validation around the job store, the two steps of
    running a job now, the execution listing and the statistics. */
module SchedulerService {
  import opened Base
  import opened ObjectIds
  import opened Tables
  import opened Registry
  import opened JobModel

  datatype SchedulerError =
    | MissingField(field: string)
    | ClassNotFound(classString: Option<string>)
    | JobNotFound
    | Store(cause: StoreError)

  /** The message the service reports; a driver error carries the driver's
      own text, which is not part of this model. */
  function Message(e: SchedulerError): string {
    match e
    case MissingField(f) => "Missing required field: " + f
    case ClassNotFound(c) => "Job class '" + PyStr(c) + "' not found"
    case JobNotFound => "Job not found"
    case Store(_) => "store error"
  }

  /** A job every service operation can run: it has an owner and its class
      string resolves in the registry. */
  predicate WellFormed(j: Job) {
    j.userId.Some? && GetJobClass(j.jobClassString).Some?
  }

  predicate AllWellFormed(jobs: Table<Job>) {
    forall k | k in jobs :: WellFormed(jobs[k])
  }

  // ---------------------------------------------------------------------
  // Job definitions

  /** The first of `user_id`, `job_class_string`, `name` (in that order)
      whose value is missing or empty. */
  function FirstMissing(data: JobData): (r: Option<string>)
    ensures r.None? <==> Truthy(data.userId) && Truthy(data.jobClassString) && Truthy(data.name)
    ensures r == Some("user_id") <==> !Truthy(data.userId)
    ensures r == Some("job_class_string") <==> Truthy(data.userId) && !Truthy(data.jobClassString)
    ensures r == Some("name") <==> Truthy(data.userId) && Truthy(data.jobClassString) && !Truthy(data.name)
  {
    if !Truthy(data.userId) then Some("user_id")
    else if !Truthy(data.jobClassString) then Some("job_class_string")
    else if !Truthy(data.name) then Some("name")
    else None
  }

  /** `create_job`. On success the result is the new job's id. */
  function CreateJob(jobs: Table<Job>, data: JobData, newId: ObjectId, now: Instant)
    : (r: (Result<ObjectId, SchedulerError>, Table<Job>))
    ensures FirstMissing(data).Some? ==> r == (Err(MissingField(FirstMissing(data).value)), jobs)
    ensures FirstMissing(data).None? && GetJobClass(data.jobClassString).None? ==>
      r == (Err(ClassNotFound(data.jobClassString)), jobs)
    ensures r.0.Err? ==> r.1 == jobs
    ensures r.0.Ok? <==> FirstMissing(data).None? && GetJobClass(data.jobClassString).Some?
                         && Parse(data.userId.value).Some? && newId !in jobs
    ensures r.0.Ok? ==>
      && r.0.value == newId && r.1.Keys == jobs.Keys + {newId}
      && (forall k | k in jobs :: r.1[k] == jobs[k])
      && r.1[newId].userId == Parse(data.userId.value)
      && r.1[newId].jobClassString == data.jobClassString && r.1[newId].name == data.name
      && r.1[newId].totalExecutions == 0 && r.1[newId].nextRunTime.None?
      && InsertJob(jobs, data, newId, now).Ok? && r.1 == InsertJob(jobs, data, newId, now).value
    ensures AllWellFormed(jobs) ==> AllWellFormed(r.1)
  {
    if FirstMissing(data).Some? then (Err(MissingField(FirstMissing(data).value)), jobs)
    else if GetJobClass(data.jobClassString).None? then (Err(ClassNotFound(data.jobClassString)), jobs)
    else
      match InsertJob(jobs, data, newId, now)
      case Err(e) => (Err(Store(e)), jobs)
      case Ok(jobs') => (Ok(newId), jobs')
  }

  /** `update_job`. On success the result echoes the id text. */
  function UpdateJob(jobs: Table<Job>, text: string, p: JobPatch, now: Instant)
    : (r: (Result<string, SchedulerError>, Table<Job>))
    ensures !Names(jobs, text) ==> r == (Err(JobNotFound), jobs)
    ensures Names(jobs, text) && p.jobClassString.Present? && GetJobClass(p.jobClassString.value).None? ==>
      r == (Err(ClassNotFound(p.jobClassString.value)), jobs)
    ensures r.0.Err? ==> r.1 == jobs
    ensures r.0.Ok? <==> Names(jobs, text) && (p.jobClassString.Present? ==> GetJobClass(p.jobClassString.value).Some?)
    ensures r.0.Ok? ==> r.0.value == text && r.1 == JobModel.UpdateJob(jobs, text, p, now).1
    ensures AllWellFormed(jobs) ==> AllWellFormed(r.1)
  {
    if !Names(jobs, text) then (Err(JobNotFound), jobs)
    else if p.jobClassString.Present? && GetJobClass(p.jobClassString.value).None? then
      (Err(ClassNotFound(p.jobClassString.value)), jobs)
    else
      (Ok(text), JobModel.UpdateJob(jobs, text, p, now).1)
  }

  /** `delete_job`. */
  function DeleteJob(jobs: Table<Job>, text: string): (r: (Result<string, SchedulerError>, Table<Job>))
    ensures !Names(jobs, text) ==> r == (Err(JobNotFound), jobs)
    ensures Names(jobs, text) ==> r == (Ok(text), jobs - {Parse(text).value})
    ensures AllWellFormed(jobs) ==> AllWellFormed(r.1)
  {
    if !Names(jobs, text) then (Err(JobNotFound), jobs)
    else (Ok(text), Delete(jobs, text).1)
  }

  /** `pause_job` (`paused` true) and `resume_job` (`paused` false). */
  function SetJobPaused(jobs: Table<Job>, text: string, paused: bool, now: Instant)
    : (r: (Result<string, SchedulerError>, Table<Job>))
    ensures !Names(jobs, text) ==> r == (Err(JobNotFound), jobs)
    ensures Names(jobs, text) ==> r.0 == Ok(text) && var id := Parse(text).value;
      && r.1 == jobs[id := jobs[id].(isPaused := paused, updatedAt := now)]
    ensures AllWellFormed(jobs) ==> AllWellFormed(r.1)
  {
    if !Names(jobs, text) then (Err(JobNotFound), jobs)
    else (Ok(text), SetPaused(jobs, text, paused, now).1)
  }

  // ---------------------------------------------------------------------
  // Running a job now: a start step and a finish step

  /** What the background step of a run needs: the new execution's id, the
      job's id, and the job document as it was read when the run started. */
  datatype RunTicket = RunTicket(executionId: ObjectId, jobId: ObjectId, job: Job)

  /** `str(job["user_id"])`. */
  function OwnerText(owner: Option<ObjectId>): string {
    if owner.Some? then Format(owner.value) else "None"
  }

  /** The owner text reads back as the owner; "None" is not an id. */
  lemma OwnerTextParse(owner: Option<ObjectId>)
    ensures Parse(OwnerText(owner)) == owner
  {
    if owner.Some? {
      ParseFormat(owner.value);
    }
  }

  /** The first half of `run_job_now`: record a `running` execution. */
  function StartRun(jobs: Table<Job>, ledger: Table<Execution>, text: string, newId: ObjectId, now: Instant)
    : (r: (Result<RunTicket, SchedulerError>, Table<Execution>))
    ensures !Names(jobs, text) ==> r == (Err(JobNotFound), ledger)
    ensures r.0.Err? ==> r.1 == ledger
    ensures r.0.Ok? <==> Names(jobs, text) && jobs[Parse(text).value].userId.Some? && newId !in ledger
    ensures r.0.Ok? ==> var id := Parse(text).value; var job := jobs[id];
      && r.0.value == RunTicket(newId, id, job)
      && r.1.Keys == ledger.Keys + {newId}
      && (forall k | k in ledger :: r.1[k] == ledger[k])
      && r.1[newId].status == Running && r.1[newId].startedAt == Some(now) && r.1[newId].completedAt.None?
      && r.1[newId].jobId == id && Some(r.1[newId].userId) == job.userId
      && r.1[newId].jobName == job.name && r.1[newId].jobClassString == job.jobClassString
      && r.1[newId].output == "" && r.1[newId].error == ""
      && r.1[newId].createdAt == now
  {
    if !Names(jobs, text) then (Err(JobNotFound), ledger)
    else
      var job := jobs[Parse(text).value];
      var data := ExecutionData(text, OwnerText(job.userId), job.name, job.jobClassString,
                                Present(Running), Present(""), Present(""), Some(now), None);
      OwnerTextParse(job.userId);
      match InsertExecution(ledger, data, newId, now)
      case Err(e) => (Err(Store(e)), ledger)
      case Ok(ledger') => (Ok(RunTicket(newId, Parse(text).value, job)), ledger')
  }

  /** The arguments the job's handler runs with. */
  function RunSettings(h: Handler, job: Job): Settings {
    Configure(h, NewHandlerInput(job.pubArgs, job.pubKwargs))
  }

  /** Whether a started run completes: its class resolves and the handler,
      given its defaulted arguments, returns instead of raising. */
  predicate Completes(t: RunTicket, run: Settings -> HandlerOutcome) {
    var h := GetJobClass(t.job.jobClassString);
    h.Some? && run(RunSettings(h.value, t.job)).Returned?
  }

  /** The error a failed run records. */
  function FailureText(t: RunTicket, run: Settings -> HandlerOutcome): string {
    var h := GetJobClass(t.job.jobClassString);
    if h.None? then "Job class not found"
    else match run(RunSettings(h.value, t.job))
      case Raised(error) => error
      case Returned(_) => ""
  }

  /** The bookkeeping a completed run writes to its job. */
  function RunBookkeeping(t: RunTicket, now: Instant): JobPatch {
    NoChanges.(lastRunTime := Present(Some(now)), totalExecutions := Present(t.job.totalExecutions + 1))
  }

  /** The execution write of the background step: the run's execution ends
      completed with the handler's output, or failed with its error. */
  function FinishExecution(ledger: Table<Execution>, t: RunTicket, run: Settings -> HandlerOutcome, now: Instant)
    : (r: Table<Execution>)
    ensures r.Keys == ledger.Keys
    ensures forall k | k in ledger && k != t.executionId :: r[k] == ledger[k]
    ensures t.executionId in ledger ==> var before, after := ledger[t.executionId], r[t.executionId];
      && after.status.Terminal()
      && (after.status == Completed <==> Completes(t, run))
      && after.completedAt == Some(now)
      && after.startedAt == before.startedAt && after.createdAt == before.createdAt
      && after.jobId == before.jobId && after.userId == before.userId && after.jobName == before.jobName
      && (Completes(t, run) ==> after.output == run(RunSettings(GetJobClass(t.job.jobClassString).value, t.job)).output)
      && (!Completes(t, run) ==> after.error == FailureText(t, run))
      && (Completes(t, run) ==> after == before.(status := Completed, output := after.output, completedAt := Some(now)))
      && (!Completes(t, run) ==> after == before.(status := Failed, error := after.error, completedAt := Some(now)))
  {
    ParseFormat(t.executionId);
    var patch :=
      if Completes(t, run) then
        NoExecutionChanges.(status := Present(Completed),
                            output := Present(run(RunSettings(GetJobClass(t.job.jobClassString).value, t.job)).output),
                            completedAt := Present(Some(now)))
      else
        NoExecutionChanges.(status := Present(Failed), error := Present(FailureText(t, run)),
                            completedAt := Present(Some(now)));
    UpdateExecution(ledger, Format(t.executionId), patch).1
  }

  /** The job write of the background step: only a completed run touches
      its job, setting the run time and the count read when it started. */
  function CountRun(jobs: Table<Job>, t: RunTicket, run: Settings -> HandlerOutcome, now: Instant)
    : (r: Table<Job>)
    ensures !Completes(t, run) ==> r == jobs
    ensures r.Keys == jobs.Keys
    ensures forall k | k in jobs && k != t.jobId :: r[k] == jobs[k]
    ensures Completes(t, run) && t.jobId in jobs ==>
      r[t.jobId] == jobs[t.jobId].(lastRunTime := Some(now), totalExecutions := t.job.totalExecutions + 1,
                                   updatedAt := now)
    ensures AllWellFormed(jobs) ==> AllWellFormed(r)
  {
    ParseFormat(t.jobId);
    if Completes(t, run) then JobModel.UpdateJob(jobs, Format(t.jobId), RunBookkeeping(t, now), now).1
    else jobs
  }

  /** The background half of `run_job_now`: `run` stands for the handler's
      `run()`, a function of the arguments it is given. */
  function FinishRun(jobs: Table<Job>, ledger: Table<Execution>, t: RunTicket,
                     run: Settings -> HandlerOutcome, now: Instant)
    : (r: (Table<Job>, Table<Execution>))
    ensures r.1.Keys == ledger.Keys
    ensures forall k | k in ledger && k != t.executionId :: r.1[k] == ledger[k]
    ensures t.executionId in ledger ==> var before, after := ledger[t.executionId], r.1[t.executionId];
      && after.status.Terminal()
      && (after.status == Completed <==> Completes(t, run))
      && after.completedAt == Some(now)
      && after.startedAt == before.startedAt && after.createdAt == before.createdAt
      && after.jobId == before.jobId && after.userId == before.userId && after.jobName == before.jobName
      && (Completes(t, run) ==> after.output == run(RunSettings(GetJobClass(t.job.jobClassString).value, t.job)).output)
      && (!Completes(t, run) ==> after.error == FailureText(t, run))
      && (Completes(t, run) ==> after == before.(status := Completed, output := after.output, completedAt := Some(now)))
      && (!Completes(t, run) ==> after == before.(status := Failed, error := after.error, completedAt := Some(now)))
    ensures !Completes(t, run) ==> r.0 == jobs
    ensures r.0.Keys == jobs.Keys
    ensures forall k | k in jobs && k != t.jobId :: r.0[k] == jobs[k]
    ensures Completes(t, run) && t.jobId in jobs ==>
      r.0[t.jobId] == jobs[t.jobId].(lastRunTime := Some(now), totalExecutions := t.job.totalExecutions + 1,
                                     updatedAt := now)
    ensures AllWellFormed(jobs) ==> AllWellFormed(r.0)
  {
    (CountRun(jobs, t, run, now), FinishExecution(ledger, t, run, now))
  }

  /** A run of a job the service created always finds its handler: the
      "Job class not found" failure cannot happen through the service. */
  lemma WellFormedRunFindsHandler(jobs: Table<Job>, ledger: Table<Execution>, text: string,
                                  newId: ObjectId, now: Instant)
    requires AllWellFormed(jobs) && Names(jobs, text) && newId !in ledger
    ensures var r := StartRun(jobs, ledger, text, newId, now);
      r.0.Ok? && GetJobClass(r.0.value.job.jobClassString).Some?
  {
  }

  /** A run started and finished leaves exactly one new execution, in a
      terminal state, and counts towards its job only when it completed. */
  lemma RunLifecycle(jobs: Table<Job>, ledger: Table<Execution>, text: string, newId: ObjectId,
                     run: Settings -> HandlerOutcome, t0: Instant, t1: Instant)
    requires StartRun(jobs, ledger, text, newId, t0).0.Ok?
    ensures var (started, ledger1) := StartRun(jobs, ledger, text, newId, t0);
      var (jobs2, ledger2) := FinishRun(jobs, ledger1, started.value, run, t1);
      var id := Parse(text).value;
      && ledger2.Keys == ledger.Keys + {newId} && newId !in ledger
      && ledger2[newId].status.Terminal() && ledger2[newId].startedAt == Some(t0)
      && ledger2[newId].completedAt == Some(t1)
      && (ledger2[newId].status == Completed ==> jobs2[id].totalExecutions == jobs[id].totalExecutions + 1)
      && (ledger2[newId].status == Failed ==> jobs2 == jobs)
  {
  }

  /** Two runs started before either finishes both read the same counter, so
      together they add one to `total_executions`, not two: the count is
      written from the value read when each run started. */
  lemma OverlappingRunsCountOnce(jobs: Table<Job>, ledger: Table<Execution>, text: string,
                                 id1: ObjectId, id2: ObjectId, run: Settings -> HandlerOutcome, now: Instant)
    requires Names(jobs, text) && jobs[Parse(text).value].userId.Some?
    requires id1 !in ledger && id2 !in ledger && id1 != id2
    requires Completes(RunTicket(id1, Parse(text).value, jobs[Parse(text).value]), run)
    ensures var (s1, l1) := StartRun(jobs, ledger, text, id1, now);
      var (s2, l2) := StartRun(jobs, l1, text, id2, now);
      var (j3, l3) := FinishRun(jobs, l2, s1.value, run, now);
      var (j4, l4) := FinishRun(j3, l3, s2.value, run, now);
      var id := Parse(text).value;
      j4[id].totalExecutions == jobs[id].totalExecutions + 1
  {
  }

  // ---------------------------------------------------------------------
  // Listing executions

  /** `get_executions`: the executions of the given job when a job id is
      given (none for a malformed one), of every job otherwise. */
  method GetExecutions(ledger: Table<Execution>, jobId: Option<string>, limit: int) returns (ids: seq<ObjectId>)
    ensures forall i | 0 <= i < |ids| :: ids[i] in ledger
    ensures Truthy(jobId) ==> forall i | 0 <= i < |ids| :: Some(ledger[ids[i]].jobId) == Parse(jobId.value)
    ensures Truthy(jobId) && Parse(jobId.value).None? ==> ids == []
    ensures forall i, j | 0 <= i < j < |ids| :: ids[i] != ids[j]
    ensures NewestFirst(ledger, ids)
    ensures Truthy(jobId) && Parse(jobId.value).Some? ==>
      |ids| == Capped(|MatchingIds(ledger, Parse(jobId.value))|, limit)
    ensures Truthy(jobId) ==> forall k, i | k in MatchingIds(ledger, Parse(jobId.value)) && k !in ids && 0 <= i < |ids| ::
      ledger[k].createdAt <= ledger[ids[i]].createdAt
    ensures !Truthy(jobId) ==> |ids| == Capped(|ledger|, limit)
    ensures !Truthy(jobId) ==> forall k, i | k in ledger && k !in ids && 0 <= i < |ids| ::
      ledger[k].createdAt <= ledger[ids[i]].createdAt
  {
    if Truthy(jobId) {
      ids := FindExecutionsByJob(ledger, jobId.value, limit);
    } else {
      ids := ListExecutions(ledger, None, limit);
      assert MatchingIds(ledger, None) == ledger.Keys;
    }
  }

  // ---------------------------------------------------------------------
  // Statistics

  datatype Stats = Stats(
    totalJobs: nat,
    enabledJobs: nat,
    pausedJobs: nat,
    totalExecutions: nat,
    completedExecutions: nat,
    failedExecutions: nat,
    successRate: real)

  /** Percentage of completed executions, 0 when there are none at all. */
  function SuccessRate(completed: nat, total: nat): real {
    if total > 0 then completed as real / total as real * 100.0 else 0.0
  }

  lemma SuccessRateBounds(completed: nat, total: nat)
    requires completed <= total
    ensures 0.0 <= SuccessRate(completed, total) <= 100.0
    ensures SuccessRate(completed, total) == 100.0 <==> total > 0 && completed == total
    ensures SuccessRate(completed, total) == 0.0 <==> completed == 0
    ensures total > 0 ==> SuccessRate(completed, total) * total as real == completed as real * 100.0
  {
    if total > 0 {
      var q := completed as real / total as real;
      assert q * total as real == completed as real;
      assert q <= 1.0;
      assert q == 1.0 <==> completed == total;
    }
  }

  predicate OwnedJob(owner: Option<ObjectId>, j: Job) {
    owner.None? || j.userId == owner
  }

  predicate OwnedExecution(owner: Option<ObjectId>, e: Execution) {
    owner.None? || e.userId == owner.value
  }

  function OwnedJobIds(jobs: Table<Job>, owner: Option<ObjectId>): set<ObjectId> {
    set k | k in jobs && OwnedJob(owner, jobs[k])
  }

  function OwnedRunIds(ledger: Table<Execution>, owner: Option<ObjectId>): set<ObjectId> {
    set k | k in ledger && OwnedExecution(owner, ledger[k])
  }

  /** The owner's paused jobs when `paused` holds, the owner's enabled jobs
      otherwise. */
  function JobIdsWhere(jobs: Table<Job>, owner: Option<ObjectId>, paused: bool): (r: set<ObjectId>)
    ensures r <= OwnedJobIds(jobs, owner)
  {
    set k | k in jobs && OwnedJob(owner, jobs[k]) && (if paused then jobs[k].isPaused else jobs[k].isEnabled)
  }

  function RunIdsWhere(ledger: Table<Execution>, owner: Option<ObjectId>, status: Status): (r: set<ObjectId>)
    ensures r <= OwnedRunIds(ledger, owner)
  {
    set k | k in ledger && OwnedExecution(owner, ledger[k]) && ledger[k].status == status
  }

  lemma TerminalCounts(ledger: Table<Execution>, owner: Option<ObjectId>)
    ensures |RunIdsWhere(ledger, owner, Completed)| + |RunIdsWhere(ledger, owner, Failed)|
            <= |OwnedRunIds(ledger, owner)|
  {
    var completed, failed := RunIdsWhere(ledger, owner, Completed), RunIdsWhere(ledger, owner, Failed);
    assert completed * failed == {};
    SubsetCount(completed + failed, OwnedRunIds(ledger, owner));
  }

  /** The `count_documents` calls of `get_scheduler_stats`, for one owner or
      for everyone. */
  function ComputeStats(jobs: Table<Job>, ledger: Table<Execution>, owner: Option<ObjectId>): (s: Stats)
    ensures s.totalJobs == |OwnedJobIds(jobs, owner)|
    ensures s.totalExecutions == |OwnedRunIds(ledger, owner)|
    ensures s.enabledJobs == |JobIdsWhere(jobs, owner, false)| && s.pausedJobs == |JobIdsWhere(jobs, owner, true)|
    ensures s.completedExecutions == |RunIdsWhere(ledger, owner, Completed)|
    ensures s.failedExecutions == |RunIdsWhere(ledger, owner, Failed)|
    ensures s.enabledJobs <= s.totalJobs && s.pausedJobs <= s.totalJobs
    ensures s.completedExecutions + s.failedExecutions <= s.totalExecutions
    ensures 0.0 <= s.successRate <= 100.0
    ensures s.totalExecutions == 0 ==> s.successRate == 0.0
    ensures s.totalExecutions > 0 ==>
      s.successRate * s.totalExecutions as real == s.completedExecutions as real * 100.0
  {
    var total, completed := |OwnedRunIds(ledger, owner)|, |RunIdsWhere(ledger, owner, Completed)|;
    SubsetCount(JobIdsWhere(jobs, owner, false), OwnedJobIds(jobs, owner));
    SubsetCount(JobIdsWhere(jobs, owner, true), OwnedJobIds(jobs, owner));
    TerminalCounts(ledger, owner);
    SuccessRateBounds(completed, total);
    Stats(|OwnedJobIds(jobs, owner)|, |JobIdsWhere(jobs, owner, false)|, |JobIdsWhere(jobs, owner, true)|,
          total, completed, |RunIdsWhere(ledger, owner, Failed)|, SuccessRate(completed, total))
  }

  /** `get_scheduler_stats`: scoped to one owner when an owner id is given,
      failing when that id is malformed. */
  function GetSchedulerStats(jobs: Table<Job>, ledger: Table<Execution>, userId: Option<string>)
    : (r: Result<Stats, SchedulerError>)
    ensures Truthy(userId) && Parse(userId.value).None? ==> r == Err(Store(InvalidId(userId.value)))
    ensures !Truthy(userId) ==> r == Ok(ComputeStats(jobs, ledger, None))
    ensures Truthy(userId) && Parse(userId.value).Some? ==> r == Ok(ComputeStats(jobs, ledger, Parse(userId.value)))
  {
    if !Truthy(userId) then Ok(ComputeStats(jobs, ledger, None))
    else match Parse(userId.value)
      case None => Err(Store(InvalidId(userId.value)))
      case Some(owner) => Ok(ComputeStats(jobs, ledger, Some(owner)))
  }

  /** Stats for everyone count every stored job and execution. */
  lemma UnscopedStatsCountEverything(jobs: Table<Job>, ledger: Table<Execution>)
    ensures ComputeStats(jobs, ledger, None).totalJobs == |jobs|
    ensures ComputeStats(jobs, ledger, None).totalExecutions == |ledger|
  {
    assert OwnedJobIds(jobs, None) == jobs.Keys;
    assert OwnedRunIds(ledger, None) == ledger.Keys;
  }
}

=== FILE: server_model.dfy ===
/** The `servers` collection: the inventory of the hosts each user manages. */
module ServerModel {
  import opened Base
  import opened ObjectIds
  import opened Tables

  datatype Server = Server(
    userId: Option<ObjectId>,
    name: Option<string>,
    hostname: Option<string>,
    port: Option<int>,
    status: Option<string>,
    connectionName: Option<string>,
    instanceUrl: Option<string>,
    username: Option<string>,
    password: Option<string>,
    createdAt: Instant,
    updatedAt: Instant)

  /** The dictionary handed to `Server.insert_server`. A key read with
      `.get(key)` is `None` when missing; only `status` has a default, so
      only its presence is recorded. */
  datatype ServerData = ServerData(
    userId: Option<string>,
    name: Option<string>,
    hostname: Option<string>,
    port: Option<int>,
    status: Field<Option<string>>,
    connectionName: Option<string>,
    instanceUrl: Option<string>,
    username: Option<string>,
    password: Option<string>)

  const DefaultStatus: string := "running"

  /** `Server.insert_server`. A text `user_id` is converted to an id, which
      fails on malformed text; a missing one is stored as `None`. */
  function InsertServer(servers: Table<Server>, data: ServerData, newId: ObjectId, now: Instant)
    : (r: Result<Table<Server>, StoreError>)
    ensures data.userId.Some? && Parse(data.userId.value).None? ==> r == Err(InvalidId(data.userId.value))
    ensures r.Ok? <==> (data.userId.Some? ==> Parse(data.userId.value).Some?) && newId !in servers
    ensures r.Ok? ==> r.value.Keys == servers.Keys + {newId}
    ensures r.Ok? ==> forall k | k in servers :: r.value[k] == servers[k]
    ensures r.Ok? ==> var s := r.value[newId];
      && (data.userId.None? ==> s.userId.None?)
      && (data.userId.Some? ==> s.userId == Parse(data.userId.value))
      && (data.status.Absent? ==> s.status == Some(DefaultStatus))
      && (data.status.Present? ==> s.status == data.status.value)
      && s.name == data.name && s.hostname == data.hostname && s.port == data.port
      && s.connectionName == data.connectionName && s.instanceUrl == data.instanceUrl
      && s.username == data.username && s.password == data.password
      && s.createdAt == now && s.updatedAt == now
  {
    var owner := if data.userId.Some? then Parse(data.userId.value) else None;
    if data.userId.Some? && owner.None? then Err(InvalidId(data.userId.value))
    else
      var s := Server(owner, data.name, data.hostname, data.port,
                      data.status.GetOr(Some(DefaultStatus)), data.connectionName,
                      data.instanceUrl, data.username, data.password, now, now);
      Insert(servers, newId, s)
  }

  /** `Server.find_servers_by_user`: the ids of the servers the user owns,
      none for a malformed user id. */
  function FindServersByUser(servers: Table<Server>, text: string): (r: set<ObjectId>)
    ensures r <= servers.Keys
    ensures Parse(text).None? ==> r == {}
    ensures forall k | k in servers :: k in r <==> Parse(text).Some? && servers[k].userId == Parse(text)
  {
    match Parse(text)
    case None => {}
    case Some(owner) => set k | k in servers && servers[k].userId == Some(owner)
  }

  /** The dictionary handed to `Server.update_server`: each key absent or
      present. */
  datatype ServerPatch = ServerPatch(
    id: Field<string>,
    userId: Field<string>,
    createdAt: Field<Instant>,
    updatedAt: Field<Instant>,
    name: Field<Option<string>>,
    hostname: Field<Option<string>>,
    port: Field<Option<int>>,
    status: Field<Option<string>>,
    connectionName: Field<Option<string>>,
    instanceUrl: Field<Option<string>>,
    username: Field<Option<string>>,
    password: Field<Option<string>>)

  const NoServerChanges: ServerPatch := ServerPatch(
    Absent, Absent, Absent, Absent, Absent, Absent, Absent, Absent, Absent, Absent, Absent, Absent)

  /** `$set` of the patch once `_id`, `user_id` and `created_at` are dropped,
      with `updated_at` overwritten. */
  function ApplyServerPatch(s: Server, p: ServerPatch, now: Instant): Server {
    Server(s.userId,
           p.name.GetOr(s.name),
           p.hostname.GetOr(s.hostname),
           p.port.GetOr(s.port),
           p.status.GetOr(s.status),
           p.connectionName.GetOr(s.connectionName),
           p.instanceUrl.GetOr(s.instanceUrl),
           p.username.GetOr(s.username),
           p.password.GetOr(s.password),
           s.createdAt,
           now)
  }

  /** Every field the patch names takes the patch's value, every other one
      keeps its old value. */
  predicate PatchedFrom(before: Server, after: Server, p: ServerPatch) {
    && after.name == p.name.GetOr(before.name)
    && after.hostname == p.hostname.GetOr(before.hostname)
    && after.port == p.port.GetOr(before.port)
    && after.status == p.status.GetOr(before.status)
    && after.connectionName == p.connectionName.GetOr(before.connectionName)
    && after.instanceUrl == p.instanceUrl.GetOr(before.instanceUrl)
    && after.username == p.username.GetOr(before.username)
    && after.password == p.password.GetOr(before.password)
  }

  /** `Server.update_server`: returns whether the document changed. */
  function UpdateServer(servers: Table<Server>, text: string, p: ServerPatch, now: Instant)
    : (r: (bool, Table<Server>))
    ensures !Names(servers, text) ==> r == (false, servers)
    ensures r.1.Keys == servers.Keys
    ensures forall k | k in servers && Parse(text) != Some(k) :: r.1[k] == servers[k]
    ensures Names(servers, text) ==> var id := Parse(text).value; var before, after := servers[id], r.1[id];
      && after.userId == before.userId && after.createdAt == before.createdAt
      && after.updatedAt == now
      && PatchedFrom(before, after, p)
      && (r.0 <==> after != before)
  {
    if Names(servers, text) then
      var id := Parse(text).value;
      var updated := ApplyServerPatch(servers[id], p, now);
      (updated != servers[id], servers[id := updated])
    else
      (false, servers)
  }

  /** With a clock that has moved on since the last write, every update of a
      stored server counts as a modification, even one that names no field. */
  lemma UpdateModifiesWhenClockMoves(servers: Table<Server>, text: string, p: ServerPatch, now: Instant)
    requires Names(servers, text) && servers[Parse(text).value].updatedAt != now
    ensures UpdateServer(servers, text, p, now).0
  {
  }

  /** Patching the protected keys alone only refreshes `updated_at`. */
  lemma ServerProtectedKeysIgnored(s: Server, p: ServerPatch, now: Instant)
    requires p == NoServerChanges.(id := p.id, userId := p.userId, createdAt := p.createdAt, updatedAt := p.updatedAt)
    ensures ApplyServerPatch(s, p, now) == s.(updatedAt := now)
  {
  }

  /** `Server.delete_servers_by_user`: removes the user's servers and
      returns how many there were; nothing for a malformed user id. */
  function DeleteServersByUser(servers: Table<Server>, text: string): (r: (nat, Table<Server>))
    ensures Parse(text).None? ==> r == (0, servers)
    ensures r.1.Keys <= servers.Keys
    ensures forall k | k in r.1 :: r.1[k] == servers[k]
    ensures Parse(text).Some? ==> forall k | k in servers :: k in r.1 <==> servers[k].userId != Parse(text)
    ensures r.0 == |servers| - |r.1|
  {
    if Parse(text).None? then (0, servers)
    else
    var gone := FindServersByUser(servers, text);
    var kept := servers - gone;
    assert kept.Keys == servers.Keys - gone;
    assert |kept| == |servers| - |gone| by {
      assert servers.Keys == kept.Keys + gone;
    }
    (|gone|, kept)
  }

  /** The servers removed for a user are exactly the ones listed for them. */
  lemma DeleteByUserRemovesListed(servers: Table<Server>, text: string)
    ensures var (count, rest) := DeleteServersByUser(servers, text);
      && rest.Keys == servers.Keys - FindServersByUser(servers, text)
      && count == |FindServersByUser(servers, text)|
  {
    var (count, rest) := DeleteServersByUser(servers, text);
    var gone := FindServersByUser(servers, text);
    assert rest.Keys == servers.Keys - gone;
    assert servers.Keys == rest.Keys + gone;
  }

  /** A server inserted for a user is listed for that user. */
  lemma InsertThenListed(servers: Table<Server>, data: ServerData, newId: ObjectId, now: Instant)
    requires data.userId.Some? && InsertServer(servers, data, newId, now).Ok?
    ensures newId in FindServersByUser(InsertServer(servers, data, newId, now).value, data.userId.value)
  {
  }
}

=== FILE: server_service.dfy ===
/** The server service: validation and partial updates over the server
    inventory. */
module ServerService {
  import opened Base
  import opened ObjectIds
  import opened Tables
  import opened ServerModel

  datatype ServerError =
    | MissingField(field: string)
    | NotFound
    | NoFieldsToUpdate
    | UpdateFailed
    | DeleteFailed
    | Store(cause: StoreError)

  /** The message the service reports; a driver error carries the driver's
      own text, which is not part of this model. */
  function Message(e: ServerError): string {
    match e
    case MissingField(f) => "Missing required field: " + f
    case NotFound => "Server not found"
    case NoFieldsToUpdate => "No fields to update"
    case UpdateFailed => "Failed to update server"
    case DeleteFailed => "Server not found or failed to delete"
    case Store(_) => "store error"
  }

  /** The first of `user_id`, `name`, `hostname`, `port` (in that order)
      whose value is missing or falsy; a port of 0 counts as missing. */
  function FirstMissing(data: ServerData): (r: Option<string>)
    ensures r.None? <==> Truthy(data.userId) && Truthy(data.name) && Truthy(data.hostname) && TruthyInt(data.port)
    ensures r == Some("user_id") <==> !Truthy(data.userId)
    ensures r == Some("name") <==> Truthy(data.userId) && !Truthy(data.name)
    ensures r == Some("hostname") <==> Truthy(data.userId) && Truthy(data.name) && !Truthy(data.hostname)
    ensures r == Some("port") <==>
      Truthy(data.userId) && Truthy(data.name) && Truthy(data.hostname) && !TruthyInt(data.port)
  {
    if !Truthy(data.userId) then Some("user_id")
    else if !Truthy(data.name) then Some("name")
    else if !Truthy(data.hostname) then Some("hostname")
    else if !TruthyInt(data.port) then Some("port")
    else None
  }

  /** `create_server`. On success the result is the new server's id as text. */
  function CreateServer(servers: Table<Server>, data: ServerData, newId: ObjectId, now: Instant)
    : (r: (Result<string, ServerError>, Table<Server>))
    ensures FirstMissing(data).Some? ==> r == (Err(MissingField(FirstMissing(data).value)), servers)
    ensures r.0.Err? ==> r.1 == servers
    ensures r.0.Ok? <==> FirstMissing(data).None? && Parse(data.userId.value).Some? && newId !in servers
    ensures r.0.Ok? ==>
      && r.0.value == Format(newId) && Parse(r.0.value) == Some(newId)
      && r.1 == InsertServer(servers, data, newId, now).value
      && newId in FindServersByUser(r.1, data.userId.value)
      && TruthyInt(r.1[newId].port)
  {
    if FirstMissing(data).Some? then (Err(MissingField(FirstMissing(data).value)), servers)
    else
      match InsertServer(servers, data, newId, now)
      case Err(e) => (Err(Store(e)), servers)
      case Ok(servers') =>
        ParseFormat(newId);
        (Ok(Format(newId)), servers')
  }

  /** The values `update_server` reads from its request; any other key of
      the request is never looked at. */
  datatype ServerUpdate = ServerUpdate(
    name: Option<string>,
    hostname: Option<string>,
    port: Option<int>,
    status: Option<string>,
    connectionName: Option<string>,
    instanceUrl: Option<string>,
    username: Option<string>,
    password: Option<string>)

  function IfTruthy(s: Option<string>): Field<Option<string>> {
    if Truthy(s) then Present(s) else Absent
  }

  /** The update dictionary: exactly the truthy values of the request. */
  function UpdateSet(u: ServerUpdate): (p: ServerPatch)
    ensures p.id.Absent? && p.userId.Absent? && p.createdAt.Absent? && p.updatedAt.Absent?
    ensures p.name.Present? <==> Truthy(u.name)
    ensures p.hostname.Present? <==> Truthy(u.hostname)
    ensures p.port.Present? <==> TruthyInt(u.port)
    ensures p.status.Present? <==> Truthy(u.status)
    ensures p.connectionName.Present? <==> Truthy(u.connectionName)
    ensures p.instanceUrl.Present? <==> Truthy(u.instanceUrl)
    ensures p.username.Present? <==> Truthy(u.username)
    ensures p.password.Present? <==> Truthy(u.password)
  {
    NoServerChanges.(
      name := IfTruthy(u.name),
      hostname := IfTruthy(u.hostname),
      port := if TruthyInt(u.port) then Present(u.port) else Absent,
      status := IfTruthy(u.status),
      connectionName := IfTruthy(u.connectionName),
      instanceUrl := IfTruthy(u.instanceUrl),
      username := IfTruthy(u.username),
      password := IfTruthy(u.password))
  }

  /** Whether the request carries nothing to write. */
  predicate NothingToUpdate(u: ServerUpdate) {
    UpdateSet(u) == NoServerChanges
  }

  lemma NothingToUpdateIffAllFalsy(u: ServerUpdate)
    ensures NothingToUpdate(u) <==>
      !Truthy(u.name) && !Truthy(u.hostname) && !TruthyInt(u.port) && !Truthy(u.status)
      && !Truthy(u.connectionName) && !Truthy(u.instanceUrl) && !Truthy(u.username) && !Truthy(u.password)
  {
  }

  /** A value the request supplies truthily, or the stored one otherwise. */
  function Kept(given: Option<string>, stored: Option<string>): Option<string> {
    if Truthy(given) then given else stored
  }

  /** `update_server`. On success the result is the updated server. */
  function UpdateServer(servers: Table<Server>, text: string, u: ServerUpdate, now: Instant)
    : (r: (Result<Server, ServerError>, Table<Server>))
    ensures !Names(servers, text) ==> r == (Err(NotFound), servers)
    ensures Names(servers, text) && NothingToUpdate(u) ==> r == (Err(NoFieldsToUpdate), servers)
    ensures r.1.Keys == servers.Keys
    ensures forall k | k in servers && Parse(text) != Some(k) :: r.1[k] == servers[k]
    ensures r.0.Ok? ==> Names(servers, text) && r.1[Parse(text).value] == r.0.value
    ensures Names(servers, text) && !NothingToUpdate(u) ==>
      var id := Parse(text).value; var before, after := servers[id], r.1[id];
      && after.userId == before.userId && after.createdAt == before.createdAt && after.updatedAt == now
      && after.name == Kept(u.name, before.name)
      && after.hostname == Kept(u.hostname, before.hostname)
      && after.port == (if TruthyInt(u.port) then u.port else before.port)
      && after.status == Kept(u.status, before.status)
      && after.connectionName == Kept(u.connectionName, before.connectionName)
      && after.instanceUrl == Kept(u.instanceUrl, before.instanceUrl)
      && after.username == Kept(u.username, before.username)
      && after.password == Kept(u.password, before.password)
      && (r.0.Ok? <==> after != before)
      && (r.0.Err? ==> r.0.error == UpdateFailed)
  {
    if !Names(servers, text) then (Err(NotFound), servers)
    else if NothingToUpdate(u) then (Err(NoFieldsToUpdate), servers)
    else
      var (modified, servers') := ServerModel.UpdateServer(servers, text, UpdateSet(u), now);
      if modified then (Ok(servers'[Parse(text).value]), servers') else (Err(UpdateFailed), servers')
  }

  /** The service can never clear a field: a value that was truthy before
      an update is truthy after it. */
  lemma UpdateNeverClears(servers: Table<Server>, text: string, u: ServerUpdate, now: Instant)
    requires Names(servers, text)
    ensures var before, after := servers[Parse(text).value], UpdateServer(servers, text, u, now).1[Parse(text).value];
      && (Truthy(before.name) ==> Truthy(after.name))
      && (Truthy(before.hostname) ==> Truthy(after.hostname))
      && (TruthyInt(before.port) ==> TruthyInt(after.port))
      && (Truthy(before.status) ==> Truthy(after.status))
      && (Truthy(before.connectionName) ==> Truthy(after.connectionName))
      && (Truthy(before.instanceUrl) ==> Truthy(after.instanceUrl))
      && (Truthy(before.username) ==> Truthy(after.username))
      && (Truthy(before.password) ==> Truthy(after.password))
  {
  }

  /** `delete_server`: success exactly when a server was removed. */
  function DeleteServer(servers: Table<Server>, text: string): (r: (Result<string, ServerError>, Table<Server>))
    ensures r.0.Ok? <==> Names(servers, text)
    ensures r.0.Err? ==> r == (Err(DeleteFailed), servers)
    ensures r.0.Ok? ==> r.1 == servers - {Parse(text).value}
  {
    var (deleted, servers') := Delete(servers, text);
    if deleted then (Ok("Server deleted successfully"), servers') else (Err(DeleteFailed), servers)
  }

  /** `delete_servers_by_user`: always succeeds, with the number removed,
      which is the number of servers listed for the user. */
  function DeleteServersByUser(servers: Table<Server>, text: string): (r: (nat, Table<Server>))
    ensures r.0 == |FindServersByUser(servers, text)|
    ensures r.1.Keys == servers.Keys - FindServersByUser(servers, text)
    ensures forall k | k in r.1 :: r.1[k] == servers[k]
  {
    DeleteByUserRemovesListed(servers, text);
    ServerModel.DeleteServersByUser(servers, text)
  }
}

=== FILE: tables.dfy ===
/** A document collection keyed by `_id`, as the model layers use it:
    `insert_one` with a fresh id, `find_one({"_id": ObjectId(text)})`, and
    counts of the documents a filter selects. */
module Tables {
  import opened Base
  import opened ObjectIds

  type Table<R> = map<ObjectId, R>

  /** What the driver raises: `InvalidId` for a malformed id text, and
      `DuplicateKeyError` for a write that breaks a unique index. */
  datatype StoreError = InvalidId(text: string) | DuplicateKey

  /** `insert_one`, where `newId` is the `_id` the driver generated. */
  function Insert<R>(t: Table<R>, newId: ObjectId, r: R): (res: Result<Table<R>, StoreError>)
    ensures res.Ok? <==> newId !in t
    ensures res.Err? ==> res.error == DuplicateKey
    ensures res.Ok? ==> res.value.Keys == t.Keys + {newId} && res.value[newId] == r
    ensures res.Ok? ==> forall k | k in t :: res.value[k] == t[k]
  {
    if newId in t then Err(DuplicateKey) else Ok(t[newId := r])
  }

  /** Whether the id text parses and names a stored document. */
  predicate Names<R>(t: Table<R>, text: string) {
    Parse(text).Some? && Parse(text).value in t
  }

  /** `find_one({"_id": ObjectId(text)})`, with the `except: return None`
      around it: `None` for a malformed id as well as for an unknown one. */
  function FindById<R>(t: Table<R>, text: string): (r: Option<R>)
    ensures r.Some? <==> Names(t, text)
    ensures r.Some? ==> r.value == t[Parse(text).value]
  {
    match Parse(text)
    case None => None
    case Some(id) => if id in t then Some(t[id]) else None
  }

  /** `delete_one({"_id": ObjectId(text)})`, with the `except: return False`
      around it: whether a document was removed. A malformed or unknown id
      removes nothing. */
  function Delete<R>(t: Table<R>, text: string): (r: (bool, Table<R>))
    ensures r.0 <==> Names(t, text)
    ensures r.0 ==> r.1 == t - {Parse(text).value} && |r.1| == |t| - 1
    ensures !r.0 ==> r.1 == t
  {
    if Names(t, text) then (true, t - {Parse(text).value}) else (false, t)
  }

  /** A filter that selects a subset of another's documents counts no more. */
  lemma SubsetCount<T>(a: set<T>, b: set<T>)
    requires a <= b
    ensures |a| <= |b|
  {
    assert b == a + (b - a);
  }
}

=== FILE: user_model.dfy ===
/** The `users` collection, in insertion order. Its two unique indexes
    (on `email` and on `user_name`) make an insert that repeats either value
    fail; a missing or `None` value is indexed as `null`, so two users
    without an email clash as well. */
module UserModel {
  import opened Base
  import opened ObjectIds
  import opened Tables

  datatype User = User(
    id: ObjectId,
    email: Option<string>,
    firstName: Option<string>,
    lastName: Option<string>,
    userName: Option<string>,
    createdAt: Instant)

  /** A user as `find_all_users` returns it: without `_id`. */
  datatype UserView = UserView(
    email: Option<string>,
    firstName: Option<string>,
    lastName: Option<string>,
    userName: Option<string>,
    createdAt: Instant)

  function View(u: User): UserView {
    UserView(u.email, u.firstName, u.lastName, u.userName, u.createdAt)
  }

  /** No two stored users share an id, an email or a user name. */
  predicate UniqueUsers(users: seq<User>) {
    forall i, j | 0 <= i < j < |users| ::
      users[i].id != users[j].id && users[i].email != users[j].email && users[i].userName != users[j].userName
  }

  /** Whether storing `u` would break one of the unique indexes. */
  predicate Clashes(users: seq<User>, u: User) {
    exists i | 0 <= i < |users| ::
      users[i].id == u.id || users[i].email == u.email || users[i].userName == u.userName
  }

  /** The dictionary handed to `User.insert_user`. */
  datatype UserData = UserData(
    email: Option<string>,
    firstName: Option<string>,
    lastName: Option<string>,
    userName: Field<Option<string>>)

  /** `User.insert_user`: `user_name` falls back to the email only when the
      key is missing, not when its value is `None` or empty. */
  function InsertUser(users: seq<User>, data: UserData, newId: ObjectId, now: Instant)
    : (r: Result<seq<User>, StoreError>)
    ensures var u := User(newId, data.email, data.firstName, data.lastName, data.userName.GetOr(data.email), now);
      && (r.Err? <==> Clashes(users, u))
      && (r.Err? ==> r.error == DuplicateKey)
      && (r.Ok? ==> r.value == users + [u])
    ensures data.userName.Absent? && r.Ok? ==> r.value[|users|].userName == data.email
    ensures UniqueUsers(users) && r.Ok? ==> UniqueUsers(r.value)
  {
    var u := User(newId, data.email, data.firstName, data.lastName, data.userName.GetOr(data.email), now);
    if Clashes(users, u) then Err(DuplicateKey) else Ok(users + [u])
  }

  /** `User.find_user_by_email`: the first stored user with that email. */
  function FindUserByEmail(users: seq<User>, email: Option<string>): (r: Option<User>)
    ensures r.None? <==> forall i | 0 <= i < |users| :: users[i].email != email
    ensures r.Some? ==> exists i | 0 <= i < |users| ::
      users[i] == r.value && users[i].email == email && forall j | 0 <= j < i :: users[j].email != email
  {
    if users == [] then None
    else if users[0].email == email then Some(users[0])
    else
      var r := FindUserByEmail(users[1..], email);
      assert forall i | 0 < i < |users| :: users[i] == users[1..][i - 1];
      r
  }

  /** In a store without duplicates the user found is the one with that email. */
  lemma {:induction false} FindUserByEmailUnique(users: seq<User>, i: nat)
    requires UniqueUsers(users) && i < |users|
    ensures FindUserByEmail(users, users[i].email) == Some(users[i])
  {
    if i > 0 {
      assert users[0].email != users[i].email;
      assert UniqueUsers(users[1..]) by {
        forall a, b | 0 <= a < b < |users[1..]|
          ensures users[1..][a].id != users[1..][b].id && users[1..][a].email != users[1..][b].email
            && users[1..][a].userName != users[1..][b].userName
        {
          assert users[1..][a] == users[a + 1] && users[1..][b] == users[b + 1];
        }
      }
      FindUserByEmailUnique(users[1..], i - 1);
    }
  }

  /** A user just inserted is the one found by its email. */
  lemma InsertThenFind(users: seq<User>, data: UserData, newId: ObjectId, now: Instant)
    requires UniqueUsers(users) && InsertUser(users, data, newId, now).Ok?
    ensures FindUserByEmail(InsertUser(users, data, newId, now).value, data.email)
         == Some(InsertUser(users, data, newId, now).value[|users|])
  {
    FindUserByEmailUnique(InsertUser(users, data, newId, now).value, |users|);
  }

  /** `User.find_all_users`: every user, in store order, without `_id`. */
  method FindAllUsers(users: seq<User>) returns (views: seq<UserView>)
    ensures |views| == |users|
    ensures forall i | 0 <= i < |users| ::
      && views[i].email == users[i].email && views[i].userName == users[i].userName
      && views[i].firstName == users[i].firstName && views[i].lastName == users[i].lastName
      && views[i].createdAt == users[i].createdAt
  {
    views := [];
    var i := 0;
    while i < |users|
      invariant 0 <= i <= |users|
      invariant |views| == i
      invariant forall k | 0 <= k < i :: views[k] == View(users[k])
    {
      views := views + [View(users[i])];
      i := i + 1;
    }
  }
}

=== FILE: user_service.dfy ===
/** The user service: ingesting users one at a time, as a JSON batch, and
    from the rows of a spreadsheet. */
module UserService {
  import opened Base
  import opened ObjectIds
  import opened Tables
  import opened UserModel

  /** The `user_*__v` values one ingested user carries (each `None` when the
      key is missing). */
  datatype IngestUser = IngestUser(
    email: Option<string>,
    firstName: Option<string>,
    lastName: Option<string>,
    userName: Option<string>)

  /** One result dictionary: `success`, `message` and `user_id`. */
  datatype Outcome = Outcome(success: bool, message: string, userId: Option<string>)

  /** The document stored for an ingested user: an empty or missing user
      name is replaced by the email. */
  function StoredUser(input: IngestUser, newId: ObjectId, now: Instant): (u: User)
    ensures u.id == newId && u.email == input.email && u.createdAt == now
    ensures u.firstName == input.firstName && u.lastName == input.lastName
    ensures Truthy(input.userName) ==> u.userName == input.userName
    ensures !Truthy(input.userName) ==> u.userName == input.email
  {
    User(newId, input.email, input.firstName, input.lastName, OrElse(input.userName, input.email), now)
  }

  /** `create_user_from_json`. A clash on either unique index is reported
      as an existing email, even when it was the user name that clashed. */
  function CreateUserFromJson(users: seq<User>, input: IngestUser, newId: ObjectId, now: Instant)
    : (r: (Outcome, seq<User>))
    ensures r.0.success <==> !Clashes(users, StoredUser(input, newId, now))
    ensures r.0.success <==> r.0.userId.Some?
    ensures r.0.success ==> r.0.userId == Some(Format(newId)) && r.1 == users + [StoredUser(input, newId, now)]
    ensures !r.0.success ==> r.1 == users && r.0.message == "User with email " + PyStr(input.email) + " already exists"
    ensures UniqueUsers(users) ==> UniqueUsers(r.1)
  {
    var data := UserData(input.email, input.firstName, input.lastName, Present(OrElse(input.userName, input.email)));
    match InsertUser(users, data, newId, now)
    case Ok(users') => (Outcome(true, "User " + PyStr(input.email) + " created successfully", Some(Format(newId))), users')
    case Err(_) => (Outcome(false, "User with email " + PyStr(input.email) + " already exists", None), users)
  }

  /** An email already on file is refused and nothing is stored. */
  lemma DuplicateEmailRefused(users: seq<User>, input: IngestUser, newId: ObjectId, now: Instant, i: nat)
    requires i < |users| && users[i].email == input.email
    ensures CreateUserFromJson(users, input, newId, now) ==
      (Outcome(false, "User with email " + PyStr(input.email) + " already exists", None), users)
  {
    assert Clashes(users, StoredUser(input, newId, now)) by {
      assert users[i].email == StoredUser(input, newId, now).email;
    }
  }

  // ---------------------------------------------------------------------
  // JSON batches

  datatype BatchReport = BatchReport(total: nat, successful: nat, failed: nat, details: seq<Outcome>)

  /** How many outcomes report success. */
  function Successes(details: seq<Outcome>): (n: nat)
    ensures n <= |details|
  {
    if details == [] then 0
    else Successes(details[..|details| - 1]) + (if details[|details| - 1].success then 1 else 0)
  }

  /** One pass of the loop of `create_users_from_json_payload`: ingest one
      user and append its outcome. */
  function AddToBatch(report: BatchReport, users: seq<User>, input: IngestUser, newId: ObjectId, now: Instant)
    : (r: (BatchReport, seq<User>))
    ensures r.0.total == report.total + 1
    ensures |r.0.details| == |report.details| + 1 && r.0.details[..|report.details|] == report.details
    ensures r.0.details[|report.details|] == CreateUserFromJson(users, input, newId, now).0
    ensures r.0.successful == report.successful + (if r.0.details[|report.details|].success then 1 else 0)
    ensures r.0.failed == report.failed + (if r.0.details[|report.details|].success then 0 else 1)
    ensures r.1 == CreateUserFromJson(users, input, newId, now).1
  {
    var (outcome, users') := CreateUserFromJson(users, input, newId, now);
    assert (report.details + [outcome])[..|report.details|] == report.details;
    (BatchReport(report.total + 1,
                 report.successful + (if outcome.success then 1 else 0),
                 report.failed + (if outcome.success then 0 else 1),
                 report.details + [outcome]),
     users')
  }

  /** The loop of `create_users_from_json_payload` after its first `m`
      passes, where `ids[i]` is the id the driver generates for the i-th
      insert. */
  function IngestFirst(users: seq<User>, batch: seq<IngestUser>, ids: seq<ObjectId>, now: Instant, m: nat)
    : (r: (BatchReport, seq<User>))
    requires |ids| == |batch| && m <= |batch|
    ensures r.0.total == m && |r.0.details| == m
    ensures r.0.successful + r.0.failed == r.0.total
    ensures |r.1| == |users| + r.0.successful && r.1[..|users|] == users
    ensures UniqueUsers(users) ==> UniqueUsers(r.1)
  {
    if m == 0 then (BatchReport(0, 0, 0, []), users)
    else
      var (report, users1) := IngestFirst(users, batch, ids, now, m - 1);
      var r := AddToBatch(report, users1, batch[m - 1], ids[m - 1], now);
      assert r.1[..|users|] == users by {
        assert users1[..|users|] == users;
        assert r.0.details[m - 1].success ==> r.1[..|users1|] == users1;
      }
      r
  }

  /** The whole loop of `create_users_from_json_payload` over `batch`. */
  function IngestBatch(users: seq<User>, batch: seq<IngestUser>, ids: seq<ObjectId>, now: Instant)
    : (r: (BatchReport, seq<User>))
    requires |ids| == |batch|
    ensures r.0.total == |batch| && |r.0.details| == |batch|
    ensures r.0.successful + r.0.failed == r.0.total
    ensures |r.1| == |users| + r.0.successful && r.1[..|users|] == users
    ensures UniqueUsers(users) ==> UniqueUsers(r.1)
  {
    IngestFirst(users, batch, ids, now, |batch|)
  }

  /** `successful` counts exactly the details that report success. */
  lemma {:induction false} FirstCountsSuccesses(users: seq<User>, batch: seq<IngestUser>, ids: seq<ObjectId>, now: Instant, m: nat)
    requires |ids| == |batch| && m <= |batch|
    ensures IngestFirst(users, batch, ids, now, m).0.successful == Successes(IngestFirst(users, batch, ids, now, m).0.details)
  {
    if m > 0 {
      FirstCountsSuccesses(users, batch, ids, now, m - 1);
      var details := IngestFirst(users, batch, ids, now, m).0.details;
      assert details[..|details| - 1] == IngestFirst(users, batch, ids, now, m - 1).0.details;
    }
  }

  lemma BatchCountsSuccesses(users: seq<User>, batch: seq<IngestUser>, ids: seq<ObjectId>, now: Instant)
    requires |ids| == |batch|
    ensures IngestBatch(users, batch, ids, now).0.successful == Successes(IngestBatch(users, batch, ids, now).0.details)
  {
    FirstCountsSuccesses(users, batch, ids, now, |batch|);
  }

  /** `create_users_from_json_payload`: a payload without a `users` key is
      an empty batch. */
  function CreateUsersFromJsonPayload(users: seq<User>, payload: Field<seq<IngestUser>>, ids: seq<ObjectId>, now: Instant)
    : (r: (BatchReport, seq<User>))
    requires |ids| == |payload.GetOr([])|
    ensures payload.Absent? ==> r == (BatchReport(0, 0, 0, []), users)
    ensures r.0.total == |payload.GetOr([])| && r.0.successful + r.0.failed == r.0.total
    ensures |r.1| == |users| + r.0.successful
  {
    IngestBatch(users, payload.GetOr([]), ids, now)
  }

  /** One more pass appends one outcome, computed from the state the earlier
      passes left. */
  lemma FirstStep(users: seq<User>, batch: seq<IngestUser>, ids: seq<ObjectId>, now: Instant, m: nat)
    requires |ids| == |batch| && 0 < m <= |batch|
    ensures var before := IngestFirst(users, batch, ids, now, m - 1);
      IngestFirst(users, batch, ids, now, m) == AddToBatch(before.0, before.1, batch[m - 1], ids[m - 1], now)
  {
  }

  /** Each pass keeps the details of the passes before it. */
  lemma FirstDetailsStep(users: seq<User>, batch: seq<IngestUser>, ids: seq<ObjectId>, now: Instant)
    requires |ids| == |batch|
    ensures forall m: nat | 0 < m <= |batch| ::
      IngestFirst(users, batch, ids, now, m).0.details[..m - 1] == IngestFirst(users, batch, ids, now, m - 1).0.details
  {
    forall m: nat | 0 < m <= |batch|
      ensures IngestFirst(users, batch, ids, now, m).0.details[..m - 1] == IngestFirst(users, batch, ids, now, m - 1).0.details
    {
      FirstStep(users, batch, ids, now, m);
    }
  }

  /** The first `m` passes read only the first `m` users and ids. */
  lemma {:induction false} FirstReadsPrefix(users: seq<User>, a: seq<IngestUser>, aIds: seq<ObjectId>,
                                            b: seq<IngestUser>, bIds: seq<ObjectId>, now: Instant, m: nat)
    requires |aIds| == |a| && |bIds| == |b| && m <= |a| && m <= |b|
    requires a[..m] == b[..m] && aIds[..m] == bIds[..m]
    ensures IngestFirst(users, a, aIds, now, m) == IngestFirst(users, b, bIds, now, m)
  {
    if m > 0 {
      assert a[m - 1] == b[m - 1] by {
        assert a[m - 1] == a[..m][m - 1] && b[m - 1] == b[..m][m - 1];
      }
      assert aIds[m - 1] == bIds[m - 1] by {
        assert aIds[m - 1] == aIds[..m][m - 1] && bIds[m - 1] == bIds[..m][m - 1];
      }
      assert IngestFirst(users, a, aIds, now, m - 1) == IngestFirst(users, b, bIds, now, m - 1) by {
        assert a[..m - 1] == a[..m][..m - 1] && b[..m - 1] == b[..m][..m - 1];
        assert aIds[..m - 1] == aIds[..m][..m - 1] && bIds[..m - 1] == bIds[..m][..m - 1];
        FirstReadsPrefix(users, a, aIds, b, bIds, now, m - 1);
      }
      FirstStep(users, a, aIds, now, m);
      FirstStep(users, b, bIds, now, m);
    }
  }

  /** A family of sequences where each member extends the one before it:
      every member starts with every earlier one. */
  lemma {:induction false} GrowingPrefixes<T>(f: nat -> seq<T>, n: nat, k: nat)
    requires k <= n
    requires forall m: nat | m <= n :: |f(m)| == m
    requires forall m: nat | 0 < m <= n :: f(m)[..m - 1] == f(m - 1)
    ensures f(n)[..k] == f(k)
  {
    if k < n {
      GrowingPrefixes(f, n - 1, k);
      assert f(n)[..k] == f(n)[..n - 1][..k];
    }
  }

  /** Later passes only append to the details of earlier ones. */
  lemma FirstDetailsGrow(users: seq<User>, batch: seq<IngestUser>, ids: seq<ObjectId>, now: Instant, k: nat)
    requires |ids| == |batch| && k <= |batch|
    ensures IngestFirst(users, batch, ids, now, |batch|).0.details[..k] == IngestFirst(users, batch, ids, now, k).0.details
  {
    var f := (m: nat) => if m <= |batch| then IngestFirst(users, batch, ids, now, m).0.details else [];
    FirstDetailsStep(users, batch, ids, now);
    GrowingPrefixes(f, |batch|, k);
  }

  /** `details` is in input order: the first `k` results are those of the
      first `k` users alone. */
  lemma BatchPrefix(users: seq<User>, batch: seq<IngestUser>, ids: seq<ObjectId>, now: Instant, k: nat)
    requires |ids| == |batch| && k <= |batch|
    ensures IngestBatch(users, batch, ids, now).0.details[..k] == IngestBatch(users, batch[..k], ids[..k], now).0.details
  {
    FirstDetailsGrow(users, batch, ids, now, k);
    FirstReadsPrefix(users, batch, ids, batch[..k], ids[..k], now, k);
  }

  /** The same email twice in one batch: at most one of the two is stored. */
  lemma RepeatedEmailFailsOnce(users: seq<User>, a: IngestUser, b: IngestUser, ids: seq<ObjectId>, now: Instant)
    requires |ids| == 2 && a.email == b.email
    ensures IngestBatch(users, [a, b], ids, now).0.failed >= 1
  {
    var batch := [a, b];
    FirstStep(users, batch, ids, now, 1);
    FirstStep(users, batch, ids, now, 2);
    var (first, users1) := IngestFirst(users, batch, ids, now, 1);
    if first.failed == 0 {
      assert users1 == users + [StoredUser(a, ids[0], now)];
      DuplicateEmailRefused(users1, b, ids[1], now, |users|);
    }
  }


  // ---------------------------------------------------------------------
  // Spreadsheets

  /** A worksheet: the header row and the data rows below it, as cell
      values (`None` for an empty cell). Data row `i` is sheet row `i + 2`. */
  datatype Sheet = Sheet(header: seq<Option<string>>, rows: seq<seq<Option<string>>>)

  const UserNameHeader: string := "user_name__v"
  const FirstNameHeader: string := "user_first_name__v"
  const LastNameHeader: string := "user_last_name__v"
  const EmailHeader: string := "user_email__v"

  /** The non-empty header cells, in order. */
  function NonEmptyHeaders(header: seq<Option<string>>): (hs: seq<string>)
    ensures |hs| <= |header|
  {
    if header == [] then []
    else
      var last := header[|header| - 1];
      NonEmptyHeaders(header[..|header| - 1]) + (if Truthy(last) then [last.value] else [])
  }

  /** `{h: i for i, h in enumerate(hs, 1)}`: a repeated name keeps its last
      position. */
  function Enumerate(hs: seq<string>): (m: map<string, nat>)
    ensures forall k | k in m :: 1 <= m[k] <= |hs| && hs[m[k] - 1] == k
  {
    if hs == [] then map[]
    else Enumerate(hs[..|hs| - 1])[hs[|hs| - 1] := |hs|]
  }

  /** The column map as `create_users_from_excel` builds it: it numbers the
      non-empty header cells, so every empty header cell shifts the columns
      after it one to the left. */
  function ColumnsAsWritten(header: seq<Option<string>>): map<string, nat> {
    Enumerate(NonEmptyHeaders(header))
  }

  /** The column map the reader needs: each header name to the (1-based)
      column it heads, the last one when a name repeats. */
  function Columns(header: seq<Option<string>>): (m: map<string, nat>)
    ensures forall k | k in m :: 1 <= m[k] <= |header| && header[m[k] - 1] == Some(k)
    ensures forall i | 0 <= i < |header| && Truthy(header[i]) :: header[i].value in m
  {
    if header == [] then map[]
    else
      var n := |header| - 1;
      var m := Columns(header[..n]);
      assert forall i | 0 <= i < n :: header[..n][i] == header[i];
      if Truthy(header[n]) then m[header[n].value := |header|] else m
  }

  lemma {:induction false} NonEmptyHeadersWithoutGaps(header: seq<Option<string>>)
    requires forall i | 0 <= i < |header| :: Truthy(header[i])
    ensures |NonEmptyHeaders(header)| == |header|
    ensures forall i | 0 <= i < |header| :: Some(NonEmptyHeaders(header)[i]) == header[i]
  {
    if header != [] {
      var n := |header| - 1;
      NonEmptyHeadersWithoutGaps(header[..n]);
      assert forall i | 0 <= i < n :: header[..n][i] == header[i];
    }
  }

  /** A non-empty cell after a header row adds one name to the list. */
  lemma NonEmptyHeadersSnoc(front: seq<Option<string>>, cell: Option<string>)
    requires Truthy(cell)
    ensures NonEmptyHeaders(front + [cell]) == NonEmptyHeaders(front) + [cell.value]
  {
    assert (front + [cell])[..|front|] == front;
  }

  /** A name after a list is numbered one past the list's length. */
  lemma EnumerateSnoc(hs: seq<string>, h: string)
    ensures Enumerate(hs + [h]) == Enumerate(hs)[h := |hs| + 1]
  {
    assert (hs + [h])[..|hs|] == hs;
  }

  /** A non-empty cell after a header row maps its name to its column. */
  lemma ColumnsSnoc(front: seq<Option<string>>, cell: Option<string>)
    requires Truthy(cell)
    ensures Columns(front + [cell]) == Columns(front)[cell.value := |front| + 1]
  {
    assert (front + [cell])[..|front|] == front;
  }

  /** With no empty header cell the two maps agree. */
  lemma {:induction false} ColumnsAgreeWithoutGaps(header: seq<Option<string>>)
    requires forall i | 0 <= i < |header| :: Truthy(header[i])
    ensures ColumnsAsWritten(header) == Columns(header)
  {
    if header != [] {
      var n := |header| - 1;
      var front, cell := header[..n], header[n];
      assert header == front + [cell];
      assert forall i | 0 <= i < n :: front[i] == header[i];
      NonEmptyHeadersWithoutGaps(front);
      calc {
        ColumnsAsWritten(header);
        Enumerate(NonEmptyHeaders(front + [cell]));
        { NonEmptyHeadersSnoc(front, cell); }
        Enumerate(NonEmptyHeaders(front) + [cell.value]);
        { EnumerateSnoc(NonEmptyHeaders(front), cell.value); }
        ColumnsAsWritten(front)[cell.value := n + 1];
        { ColumnsAgreeWithoutGaps(front); }
        Columns(front)[cell.value := n + 1];
        { ColumnsSnoc(front, cell); }
        Columns(header);
      }
    }
  }

  /** One empty cell in front of the header row: the column map as written
      reads the email from the last-name column. */
  lemma BlankHeaderShiftsColumns()
    ensures var header := [None, Some(UserNameHeader), Some(FirstNameHeader), Some(LastNameHeader), Some(EmailHeader)];
      && ColumnsAsWritten(header)[EmailHeader] == 4
      && header[4 - 1] == Some(LastNameHeader)
      && Columns(header)[EmailHeader] == 5
  {
    var header := [None, Some(UserNameHeader), Some(FirstNameHeader), Some(LastNameHeader), Some(EmailHeader)];
    assert NonEmptyHeaders(header[..1]) == [];
    assert header[..2][..1] == header[..1];
    assert NonEmptyHeaders(header[..2]) == [UserNameHeader];
    assert header[..3][..2] == header[..2];
    assert NonEmptyHeaders(header[..3]) == [UserNameHeader, FirstNameHeader];
    assert header[..4][..3] == header[..3];
    assert NonEmptyHeaders(header[..4]) == [UserNameHeader, FirstNameHeader, LastNameHeader];
    assert header[..4] == header[..|header| - 1];
    assert NonEmptyHeaders(header) == [UserNameHeader, FirstNameHeader, LastNameHeader, EmailHeader];
    var hs := [UserNameHeader, FirstNameHeader, LastNameHeader, EmailHeader];
    assert hs[..3] == [UserNameHeader, FirstNameHeader, LastNameHeader];
    assert Enumerate(hs) == Enumerate(hs[..3])[EmailHeader := 4];
    assert Columns(header) == Columns(header[..4])[EmailHeader := 5];
  }

  /** `col_map.get(key, default)`. */
  function Column(cols: map<string, nat>, key: string, default: nat): nat {
    if key in cols then cols[key] else default
  }

  /** `worksheet.cell(row, col).value` for a 1-based column. */
  function Cell(row: seq<Option<string>>, col: nat): Option<string> {
    if 1 <= col <= |row| then row[col - 1] else None
  }

  /** The four values read from one data row; without a header a value is
      read from its default column (1 to 4). */
  function ReadRow(cols: map<string, nat>, row: seq<Option<string>>): IngestUser {
    IngestUser(Cell(row, Column(cols, EmailHeader, 4)),
               Cell(row, Column(cols, FirstNameHeader, 2)),
               Cell(row, Column(cols, LastNameHeader, 3)),
               Cell(row, Column(cols, UserNameHeader, 1)))
  }

  /** The values a kept row is ingested with: empty names become "" and an
      empty user name becomes the email. */
  function RowInput(v: IngestUser): (r: IngestUser)
    ensures r.email == v.email
    ensures Truthy(v.firstName) ==> r.firstName == v.firstName
    ensures !Truthy(v.firstName) ==> r.firstName == Some("")
    ensures Truthy(v.lastName) ==> r.lastName == v.lastName
    ensures !Truthy(v.lastName) ==> r.lastName == Some("")
    ensures Truthy(v.userName) ==> r.userName == v.userName
    ensures !Truthy(v.userName) ==> r.userName == v.email
  {
    IngestUser(v.email, OrElse(v.firstName, Some("")), OrElse(v.lastName, Some("")), OrElse(v.userName, v.email))
  }

  /** The sheet row numbers of the rows that have an email, in order. */
  function KeptRows(cols: map<string, nat>, rows: seq<seq<Option<string>>>): (ns: seq<nat>)
    ensures |ns| <= |rows|
  {
    if rows == [] then []
    else
      var n := |rows| - 1;
      KeptRows(cols, rows[..n]) + (if Truthy(ReadRow(cols, rows[n]).email) then [n + 2] else [])
  }

  /** The kept rows of a sheet extend those of all but its last row by at
      most that row. */
  lemma KeptRowsStep(cols: map<string, nat>, rows: seq<seq<Option<string>>>)
    requires rows != []
    ensures var n := |rows| - 1;
      KeptRows(cols, rows) == KeptRows(cols, rows[..n]) + (if Truthy(ReadRow(cols, rows[n]).email) then [n + 2] else [])
  {
  }

  /** Every kept row number names a data row whose email cell is not empty. */
  lemma {:induction false} KeptRowsHaveEmail(cols: map<string, nat>, rows: seq<seq<Option<string>>>)
    ensures forall i | 0 <= i < |KeptRows(cols, rows)| ::
      2 <= KeptRows(cols, rows)[i] < |rows| + 2 && Truthy(ReadRow(cols, rows[KeptRows(cols, rows)[i] - 2]).email)
  {
    if rows != [] {
      var n := |rows| - 1;
      var prefix, ns := KeptRows(cols, rows[..n]), KeptRows(cols, rows);
      KeptRowsHaveEmail(cols, rows[..n]);
      forall i | 0 <= i < |ns|
        ensures 2 <= ns[i] < |rows| + 2 && Truthy(ReadRow(cols, rows[ns[i] - 2]).email)
      {
        if i < |prefix| {
          assert ns[i] == prefix[i];
          assert 2 <= prefix[i] < n + 2 && Truthy(ReadRow(cols, rows[..n][prefix[i] - 2]).email);
          assert rows[..n][prefix[i] - 2] == rows[prefix[i] - 2];
        }
      }
    }
  }

  /** Kept row numbers increase. */
  lemma {:induction false} KeptRowsIncrease(cols: map<string, nat>, rows: seq<seq<Option<string>>>)
    ensures forall i, j | 0 <= i < j < |KeptRows(cols, rows)| :: KeptRows(cols, rows)[i] < KeptRows(cols, rows)[j]
  {
    if rows != [] {
      var n := |rows| - 1;
      KeptRowsIncrease(cols, rows[..n]);
      KeptRowsHaveEmail(cols, rows[..n]);
    }
  }

  /** Every data row whose email cell is not empty is kept. */
  lemma {:induction false} RowsWithEmailKept(cols: map<string, nat>, rows: seq<seq<Option<string>>>)
    ensures forall i | 0 <= i < |rows| && Truthy(ReadRow(cols, rows[i]).email) :: i + 2 in KeptRows(cols, rows)
  {
    if rows != [] {
      var n := |rows| - 1;
      RowsWithEmailKept(cols, rows[..n]);
      forall i | 0 <= i < n && Truthy(ReadRow(cols, rows[i]).email)
        ensures i + 2 in KeptRows(cols, rows)
      {
        assert rows[..n][i] == rows[i];
      }
    }
  }

  /** The kept rows are, in increasing order, exactly the sheet rows whose
      email cell is not empty. */
  lemma KeptRowsAreRowsWithEmail(cols: map<string, nat>, rows: seq<seq<Option<string>>>)
    ensures var ns := KeptRows(cols, rows);
      && (forall i | 0 <= i < |ns| :: 2 <= ns[i] < |rows| + 2 && Truthy(ReadRow(cols, rows[ns[i] - 2]).email))
      && (forall i, j | 0 <= i < j < |ns| :: ns[i] < ns[j])
      && (forall i | 0 <= i < |rows| && Truthy(ReadRow(cols, rows[i]).email) :: i + 2 in ns)
  {
    KeptRowsHaveEmail(cols, rows);
    KeptRowsIncrease(cols, rows);
    RowsWithEmailKept(cols, rows);
  }

  /** One entry of the spreadsheet report: the sheet row and its outcome. */
  datatype RowOutcome = RowOutcome(row: nat, outcome: Outcome)

  datatype SheetReport = SheetReport(total: nat, successful: nat, failed: nat, details: seq<RowOutcome>)

  /** Whether a stored user has the shape every spreadsheet row produces. */
  predicate IngestedFromRow(u: User) {
    Truthy(u.email) && Truthy(u.userName) && u.firstName.Some? && u.lastName.Some?
  }

  /** One kept row: ingest it and record its outcome under its row number. */
  function IngestRow(report: SheetReport, users: seq<User>, rowNumber: nat, v: IngestUser, newId: ObjectId, now: Instant)
    : (r: (SheetReport, seq<User>))
    requires Truthy(v.email)
    ensures r.0.total == report.total + 1
    ensures |r.0.details| == |report.details| + 1 && r.0.details[..|report.details|] == report.details
    ensures r.0.details[|report.details|].row == rowNumber
    ensures r.0.successful + r.0.failed == report.successful + report.failed + 1
    ensures r.0.successful >= report.successful && r.0.failed >= report.failed
    ensures r.0.successful == report.successful + 1 <==> !Clashes(users, StoredUser(RowInput(v), newId, now))
    ensures r.0.successful == report.successful + 1 ==> r.1 == users + [StoredUser(RowInput(v), newId, now)]
    ensures r.0.successful == report.successful ==> r.1 == users
    ensures |r.1| == |users| + r.0.successful - report.successful && r.1[..|users|] == users
    ensures forall i | |users| <= i < |r.1| :: IngestedFromRow(r.1[i])
    ensures UniqueUsers(users) ==> UniqueUsers(r.1)
  {
    var (outcome, users') := CreateUserFromJson(users, RowInput(v), newId, now);
    assert IngestedFromRow(StoredUser(RowInput(v), newId, now));
    (SheetReport(report.total + 1,
                 report.successful + (if outcome.success then 1 else 0),
                 report.failed + (if outcome.success then 0 else 1),
                 report.details + [RowOutcome(rowNumber, outcome)]),
     users')
  }

  /** One ingested row extends a report that lists the kept rows so far by
      exactly that row. */
  lemma RowExtendsReport(report: SheetReport, users: seq<User>, users1: seq<User>, kept: seq<nat>,
                         rowNumber: nat, v: IngestUser, newId: ObjectId, now: Instant)
    requires Truthy(v.email)
    requires report.total == |report.details| == |kept|
    requires forall i | 0 <= i < |report.details| :: report.details[i].row == kept[i]
    requires report.successful + report.failed == report.total
    requires |users1| == |users| + report.successful && users1[..|users|] == users
    ensures var r := IngestRow(report, users1, rowNumber, v, newId, now);
      && r.0.total == |r.0.details| == |kept + [rowNumber]|
      && (forall i | 0 <= i < |r.0.details| :: r.0.details[i].row == (kept + [rowNumber])[i])
      && r.0.successful + r.0.failed == r.0.total
      && |r.1| == |users| + r.0.successful && r.1[..|users|] == users
  {
    var (report2, users2) := IngestRow(report, users1, rowNumber, v, newId, now);
    forall i | 0 <= i < |report.details|
      ensures report2.details[i].row == kept[i]
    {
      assert report2.details[i] == report2.details[..|report.details|][i];
    }
    assert users2[..|users1|] == users1;
  }

  /** The row loop of `create_users_from_excel`; `ids[i]` is the id the
      driver would generate for data row `i`. */
  function IngestRows(users: seq<User>, cols: map<string, nat>, rows: seq<seq<Option<string>>>,
                      ids: seq<ObjectId>, now: Instant)
    : (r: (SheetReport, seq<User>))
    requires |ids| == |rows|
    ensures r.0.total == |r.0.details| == |KeptRows(cols, rows)|
    ensures forall i | 0 <= i < |r.0.details| :: r.0.details[i].row == KeptRows(cols, rows)[i]
    ensures r.0.successful + r.0.failed == r.0.total
    ensures |r.1| == |users| + r.0.successful && r.1[..|users|] == users
  {
    if rows == [] then (SheetReport(0, 0, 0, []), users)
    else
      var n := |rows| - 1;
      var (report, users1) := IngestRows(users, cols, rows[..n], ids[..n], now);
      var v := ReadRow(cols, rows[n]);
      var kept := KeptRows(cols, rows[..n]);
      KeptRowsStep(cols, rows);
      if !Truthy(v.email) then (report, users1)
      else
        var (report2, users2) := IngestRow(report, users1, n + 2, v, ids[n], now);
        RowExtendsReport(report, users, users1, kept, n + 2, v, ids[n], now);
        (report2, users2)
  }

  /** Every user a sheet adds has an email, a user name and both names, and
      the sheet never breaks the store's uniqueness. */
  lemma {:induction false} IngestRowsStoresRowUsers(users: seq<User>, cols: map<string, nat>,
                                                    rows: seq<seq<Option<string>>>, ids: seq<ObjectId>, now: Instant)
    requires |ids| == |rows|
    ensures forall i | |users| <= i < |IngestRows(users, cols, rows, ids, now).1| ::
      IngestedFromRow(IngestRows(users, cols, rows, ids, now).1[i])
    ensures UniqueUsers(users) ==> UniqueUsers(IngestRows(users, cols, rows, ids, now).1)
  {
    if rows != [] {
      var n := |rows| - 1;
      IngestRowsStoresRowUsers(users, cols, rows[..n], ids[..n], now);
      var step := IngestRows(users, cols, rows[..n], ids[..n], now);
      var users1 := step.1;
      var v := ReadRow(cols, rows[n]);
      if Truthy(v.email) {
        var users2 := IngestRow(step.0, users1, n + 2, v, ids[n], now).1;
        assert users2 == IngestRows(users, cols, rows, ids, now).1;
        forall i | |users| <= i < |users2|
          ensures IngestedFromRow(users2[i])
        {
          if i < |users1| {
            assert users2[i] == users2[..|users1|][i] == users1[i];
          }
        }
      }
    }
  }

  /** `create_users_from_excel` on a sheet that could be read, with the
      column map built from each header's own column. */
  function CreateUsersFromSheet(users: seq<User>, sheet: Sheet, ids: seq<ObjectId>, now: Instant)
    : (r: (SheetReport, seq<User>))
    requires |ids| == |sheet.rows|
    ensures r.0.total == |KeptRows(Columns(sheet.header), sheet.rows)|
    ensures r.0.successful + r.0.failed == r.0.total
    ensures |r.1| == |users| + r.0.successful
  {
    IngestRows(users, Columns(sheet.header), sheet.rows, ids, now)
  }

  /** `create_users_from_excel` as written: the column map numbers only the
      non-empty header cells. */
  function CreateUsersFromSheetAsWritten(users: seq<User>, sheet: Sheet, ids: seq<ObjectId>, now: Instant)
    : (r: (SheetReport, seq<User>))
    requires |ids| == |sheet.rows|
    ensures r.0.total == |KeptRows(ColumnsAsWritten(sheet.header), sheet.rows)|
    ensures r.0.successful + r.0.failed == r.0.total
    ensures |r.1| == |users| + r.0.successful
  {
    IngestRows(users, ColumnsAsWritten(sheet.header), sheet.rows, ids, now)
  }

  /** Without empty header cells the operation as written and the corrected
      one ingest the same rows in the same way. */
  lemma SheetIngestAgreesWithoutGaps(users: seq<User>, sheet: Sheet, ids: seq<ObjectId>, now: Instant)
    requires |ids| == |sheet.rows|
    requires forall i | 0 <= i < |sheet.header| :: Truthy(sheet.header[i])
    ensures CreateUsersFromSheetAsWritten(users, sheet, ids, now) == CreateUsersFromSheet(users, sheet, ids, now)
  {
    ColumnsAgreeWithoutGaps(sheet.header);
  }
}
